=== FILE: README.md ===
# ini-parser document model and line parser, in Dafny

This project models the core of the C# `ini-parser` library: the INI document
model of `IniParser.Model` and the line parser `IniDataParser`.

- **Documents.** A document (`IniData`) owns one collection of global keys and
  one ordered collection of sections. Each section has a name, leading comments
  and its own key collection.
- **Names.** Key and section names are compared under one policy chosen per
  document: exact, or after ASCII case folding (`IniDataCaseInsensitive`, or the
  parser's `CaseInsensitive` option).
- **Collections.** An indexed write creates the entry or overwrites it, so the
  last write under any spelling wins. `AddKey` is modelled as the same
  create-or-overwrite.
- **Document operations.** `Merge` applies a source document on top of a target.
  `DeepClone` copies. `ClearAllComments` empties every comment list.
- **Parsing.** The parser reads already-split lines:
  - comment lines (`;`) are buffered and attached to the next section or key;
  - `[name]` opens a section;
  - any other non-blank line splits at the first occurrence of the key/value
    delimiter (default `=`) into a trimmed key and a trimmed value, which goes
    into the current section (the global collection before the first header).

Files, one module each:

| file | module | contents |
|---|---|---|
| `wrappers.dfy` | `Wrappers` | `Option`, `Result` |
| `text.dfy` | `Text` | trimming, prefix test, first-occurrence split, ASCII lower case |
| `names.dfy` | `Names` | the case policy and name equivalence `Same` |
| `collection.dfy` | `Collection` | the ordered named collection shared by keys and sections: find, create-or-overwrite, put, re-keying under a policy, add-if-absent, merge, comment clearing |
| `keys.dfy` | `Keys` | key collections: `ContainsKey`, `GetKeyData`, indexed read and write, `AddKey`, key merge |
| `sections.dfy` | `Sections` | section collections: `ContainsSection`, `GetSectionData`, `AddSection`, `Add` (which re-keys the added section), section merge |
| `document.dfy` | `Document` | `IniData`, its invariant, lookups and writes, `Merge`, `DeepClone`, `ClearAllComments` |
| `parser.dfy` | `Parser` | scheme and configuration, line lexing, the parse state machine, `Parse` |
| `fixture.dfy` | `Fixture` | how each line of the unit-test fixtures lexes |
| `scenarios.dfy` | `Scenarios` | each unit test of `INIDataTests` replayed on the model, with the exact inputs and expectations |

The model follows the behaviour fixed by the unit tests in
`src/IniFileParser.Tests/Unit/INIDataTests.cs`. An indexed write to a name that
already exists overwrites its value (lines 101-110). `AddKey` on such a name is
modelled the same way, as create-or-overwrite; no test fixes that case. A
section built on its own and then added to a case-insensitive
document (lines 65-79) is re-keyed under the document's policy, so that case
variants of one key collapse to the last one written.

## Model

| member | source | states |
|---|---|---|
| Text.SplitAtFirst | src/IniFileParser.Tests/Unit/INIDataTests.cs:221-230 | the line is exactly before + delimiter + after, and the delimiter occurs nowhere inside `before`; None exactly when the delimiter occurs nowhere |
| Text.SplitAtFirstUnique | src/IniFileParser.Tests/Unit/INIDataTests.cs:221-230 | any decomposition whose `before` holds no earlier start of the delimiter is the split returned, even when `after` contains the delimiter again |
| Text.Trim | src/IniFileParser.Tests/Unit/INIDataTests.cs:85-87 | the result has no leading or trailing whitespace and is no longer than the line; `Text.TrimFrame` states exactly which infix it is |
| Text.TrimFrame | src/IniFileParser.Tests/Unit/INIDataTests.cs:85-87 | trimming removes exactly the surrounding whitespace of a trimmed infix, so indented key lines yield bare names |
| Text.TrimEmpty | src/IniFileParser.Tests/Unit/INIDataTests.cs:29 | a line trims to nothing exactly when it is all whitespace |
| Text.TrimIdempotent | src/IniFileParser.Tests/Unit/INIDataTests.cs:85-87 | trimming twice is trimming once |
| Names.SameCharacterization | src/IniFileParser.Tests/Unit/INIDataTests.cs:65-79 | case-sensitive names match only when equal; case-insensitive names match exactly when they have the same length and agree character by character after ASCII folding |
| Names.SameAsNormalized | src/IniFileParser.Tests/Unit/INIDataTests.cs:73-79 | every name is the same name as its folded form |
| Collection.ContainsIff | src/IniFileParser.Tests/Unit/INIDataTests.cs:73-74 | a collection contains a name exactly when some entry's name matches it under the policy |
| Collection.IndexOf | src/IniFileParser.Tests/Unit/INIDataTests.cs:73-79 | returns the first position whose name matches under the policy, with no match before it; None when no entry matches |
| Collection.Find | src/IniFileParser.Tests/Unit/INIDataTests.cs:37-39 | finds an entry exactly when one matches, and what it finds is an entry of the collection with a matching name |
| Collection.FindUnique | src/IniFileParser.Tests/Unit/INIDataTests.cs:195-213 | in a collection without duplicate names, any matching entry is the one found |
| Collection.Upsert | src/IniFileParser.Tests/Unit/INIDataTests.cs:67-69 | create-or-overwrite: grows by one exactly for a new name, keeps every stored name and comment list, leaves entries of other names untouched, appends a new entry with no comments, and keeps a duplicate-free collection duplicate-free |
| Collection.FindAfterUpsert | src/IniFileParser.Tests/Unit/INIDataTests.cs:101-110 | after create-or-overwrite, the written name in any equivalent spelling finds the overwritten or new entry with the new payload; other names find what they found before |
| Collection.Put | src/IniFileParser.Tests/Unit/INIDataTests.cs:66-71 | storing a whole entry keeps every stored name and the entries of other names, appends the entry when its name is new, leaves every entry either carrying the new payload and comments or unchanged, and keeps a duplicate-free collection duplicate-free |
| Collection.FindAfterPut | src/IniFileParser.Tests/Unit/INIDataTests.cs:66-74 | after a put, the name in any equivalent spelling finds the stored entry with the new payload and comments; other names find what they found before |
| Collection.LastMatchNone | src/IniFileParser.Tests/Unit/INIDataTests.cs:67-79 | the reference for re-keying finds no entry exactly when no name matches |
| Collection.LastMatchAt | src/IniFileParser.Tests/Unit/INIDataTests.cs:67-79 | what the reference finds sits at a position whose name matches, and no later entry matches |
| Collection.LastMatchLast | src/IniFileParser.Tests/Unit/INIDataTests.cs:67-79 | the reference finds, whenever it finds anything, a matching entry that no later entry matches |
| Collection.Rebuild | src/IniFileParser.Tests/Unit/INIDataTests.cs:71 | re-keying a collection under a policy yields no duplicate names and never more entries |
| Collection.FindAfterRebuild | src/IniFileParser.Tests/Unit/INIDataTests.cs:71-79 | after re-keying, a name finds an entry exactly when some original entry matched it, and finds the payload and comments of the last such entry |
| Collection.RebuildUnique | src/IniFileParser.Tests/Unit/INIDataTests.cs:71 | re-keying a collection that already has no duplicates under the policy changes nothing |
| Collection.MapData | src/IniFileParser.Tests/Unit/INIDataTests.cs:187 | mapping payloads keeps the length, every name and every comment list |
| Collection.FindAfterMapData | src/IniFileParser.Tests/Unit/INIDataTests.cs:187 | after mapping payloads, every name finds the mapped form of what it found before, and names stay unique |
| Collection.AddIfAbsent | src/IniFileParser.Tests/Unit/INIDataTests.cs:55 | adds an entry only under a new name; an existing name leaves the collection unchanged; afterwards the name is contained; no duplicate is introduced |
| Collection.FindAfterMerge | src/IniFileParser.Tests/Unit/INIDataTests.cs:187-213 | for every name, the merge holds the target's entry with its payload combined with the source's, or whichever side alone holds the name |
| Collection.Merge | src/IniFileParser.Tests/Unit/INIDataTests.cs:187 | merging never shrinks the target, keeps every target entry's name and comments at its position, and keeps a duplicate-free target duplicate-free whatever the source holds; `Collection.FindAfterMerge` states the payloads |
| Collection.UniqueSize | src/IniFileParser.Tests/Unit/INIDataTests.cs:193 | a collection without duplicate names has as many entries as distinct normalised names |
| Collection.NameSetAfterUpsert | src/IniFileParser.Tests/Unit/INIDataTests.cs:67-69 | create-or-overwrite adds exactly the written name to the set of names |
| Collection.FindAfterClearComments | src/IniFileParser.Tests/Unit/INIDataTests.cs:42-46 | clearing comments keeps every name resolvable to the same entry, with no comments and the mapped payload, and keeps names unique |
| Collection.MergeKeepsData | src/IniFileParser.Tests/Unit/INIDataTests.cs:187 | a property of every payload on both sides that combining preserves holds of every payload of the merge |
| Keys.ContainsKey | src/IniFileParser.Tests/Unit/INIDataTests.cs:145-153 | defined as `Collection.Contains` on the keys; `Collection.ContainsIff` states when it holds |
| Keys.GetKeyData | src/IniFileParser.Tests/Unit/INIDataTests.cs:37-39 | the whole entry is found exactly when the key is contained, and what is found is an entry of the collection whose name matches under the policy |
| Keys.Get | src/IniFileParser.Tests/Unit/INIDataTests.cs:58 | an indexed read yields a value exactly when the key is contained, and the value is that of a matching entry |
| Keys.Set | src/IniFileParser.Tests/Unit/INIDataTests.cs:104 | after an indexed write the written name reads the new value, and a duplicate-free collection stays duplicate-free; `Keys.GetAfterSet` states that every other name reads as before |
| Keys.AddKey | src/IniFileParser.Tests/Unit/INIDataTests.cs:67-69 | `AddKey` is create-or-overwrite, the same as an indexed write: the written name reads the new value afterwards, and a duplicate-free collection stays duplicate-free; `Keys.GetAfterAddKeys` states that the last of several case variants wins |
| Keys.GetAfterSet | src/IniFileParser.Tests/Unit/INIDataTests.cs:53-58 | after a write the written name, in any equivalent spelling, reads the new value and is contained; every other name reads and is contained as before |
| Keys.SetKeepsEntry | src/IniFileParser.Tests/Unit/INIDataTests.cs:104 | a write keeps the stored name and comments of the entry it overwrites; a new entry gets no comments |
| Keys.SetSize | src/IniFileParser.Tests/Unit/INIDataTests.cs:67-69 | a write adds an entry exactly when the name is new and never introduces a duplicate |
| Keys.LastWriteSome | src/IniFileParser.Tests/Unit/INIDataTests.cs:101-110 | the reference for "last write wins" yields a value exactly when some write used an equivalent name |
| Keys.LastWriteAt | src/IniFileParser.Tests/Unit/INIDataTests.cs:101-110 | the reported value comes from a write to an equivalent name with no later write to one |
| Keys.LastWriteIsLast | src/IniFileParser.Tests/Unit/INIDataTests.cs:101-110 | whenever a value is reported, it is that of a write to an equivalent name with no later write to one |
| Keys.GetAfterAddKeys | src/IniFileParser.Tests/Unit/INIDataTests.cs:67-79 | last write wins: after any sequence of `AddKey` calls, each name reads the value most recently written under an equivalent name, or what it read before if none was written |
| Keys.AddKeysSize | src/IniFileParser.Tests/Unit/INIDataTests.cs:67-69 | `AddKey` calls into an empty collection leave one entry per distinct folded name, with no duplicates |
| Keys.MergeKeysSpec | src/IniFileParser.Tests/Unit/INIDataTests.cs:187-207 | key merge: a name the source holds reads the source's value; a target-only name keeps its whole entry; a source-only entry arrives whole; a target entry keeps its comments; a name is contained afterwards exactly when either side held it |
| Keys.MergeKeys | src/IniFileParser.Tests/Unit/INIDataTests.cs:187 | key merge never shrinks the target, keeps every target key's name and comments at its position, and keeps duplicate-free keys duplicate-free; `Keys.MergeKeysSpec` states the values |
| Sections.ContainsSection | src/IniFileParser.Tests/Unit/INIDataTests.cs:73-74 | defined as `Collection.Contains` on the sections; `Collection.ContainsIff` states when it holds |
| Sections.GetSectionData | src/IniFileParser.Tests/Unit/INIDataTests.cs:195-209 | a section is found exactly when one is contained, and what is found is a section of the collection whose name matches under the policy |
| Sections.AddSection | src/IniFileParser.Tests/Unit/INIDataTests.cs:55 | afterwards the section exists; an existing section is left unchanged; a new one is appended empty; names stay unique |
| Sections.GetAfterAddSection | src/IniFileParser.Tests/Unit/INIDataTests.cs:141-148 | after `AddSection`, the name resolves to the existing section or to a new empty one; other names resolve as before |
| Sections.Adopt | src/IniFileParser.Tests/Unit/INIDataTests.cs:65-79 | a section taken into a collection keeps its name and comments, gets unique keys under the collection's policy, and each key name reads the value of the last original key of an equivalent name; a section that already has unique keys is taken as it is |
| Sections.AddSectionData | src/IniFileParser.Tests/Unit/INIDataTests.cs:71 | `Sections.Add(section)` grows the collection by one exactly when the name is new, keeps every stored section name at its position, and keeps duplicate-free names duplicate-free |
| Sections.GetAfterAddSectionData | src/IniFileParser.Tests/Unit/INIDataTests.cs:66-79 | after `Add(section)`, every equivalent spelling of its name resolves to a section with its comments and its keys re-keyed under the policy; other names resolve as before; section names stay unique and the keys of every section stay unique |
| Sections.Adopted | src/IniFileParser.Tests/Unit/INIDataTests.cs:187 | every section of a source collection is taken in, in order, with its name and comments kept and its keys unique under the policy |
| Sections.MergeSectionsSpec | src/IniFileParser.Tests/Unit/INIDataTests.cs:187-213 | section merge: a section exists afterwards exactly when either side had it; one-sided sections are taken whole; a source-only section arrives re-keyed under the target's policy; a shared section keeps the target's name and comments and merges in the source's re-keyed keys |
| Sections.MergeSections | src/IniFileParser.Tests/Unit/INIDataTests.cs:187 | section merge never shrinks the target, keeps every target section's name and comments at its position, and keeps duplicate-free names duplicate-free; `Sections.MergeSectionsSpec` states the contents |
| Sections.MergeSectionsKeysUnique | src/IniFileParser.Tests/Unit/INIDataTests.cs:187 | merging keeps the keys of every section unique, whatever the source holds |
| Document.GetGlobal | src/IniFileParser.Tests/Unit/INIDataTests.cs:105-110 | `data.Global[key]` yields a value exactly when the global keys contain the key, and the value is that of a global entry whose name matches |
| Document.GetValue | src/IniFileParser.Tests/Unit/INIDataTests.cs:58 | `data[section][key]` yields a value exactly when the section exists and its keys contain the key |
| Document.SectionKeys | src/IniFileParser.Tests/Unit/INIDataTests.cs:58 | `data[section]` yields keys exactly when the section exists, and what it yields are the keys of a section with an equivalent name |
| Document.SetGlobal | src/IniFileParser.Tests/Unit/INIDataTests.cs:102-110 | after a global write, each key reads the new value when it is equivalent to the written key and what it read before otherwise; the sections and the policy are unchanged, and the document stays well formed |
| Document.SetValue | src/IniFileParser.Tests/Unit/INIDataTests.cs:142-143 | a write inside a section succeeds exactly when the section exists; it keeps the policy, the global keys and the section count, and keeps a well-formed document well formed |
| Document.GetAfterSetValue | src/IniFileParser.Tests/Unit/INIDataTests.cs:142-146 | after a section write, the written (section, key) pair in any equivalent spelling reads the new value; every other pair reads as before |
| Document.AddSection | src/IniFileParser.Tests/Unit/INIDataTests.cs:55 | afterwards the section exists; an existing section leaves the sections exactly as they were, and a new name appends one empty section; the policy, the global keys and every section of another name are unchanged; a well-formed document stays well formed |
| Document.AddSectionData | src/IniFileParser.Tests/Unit/INIDataTests.cs:71 | after adding a whole section its name resolves to a section with its comments and its keys re-keyed under the document's policy; the policy, the global keys and every section of another name are unchanged; a well-formed document stays well formed, whatever the added keys |
| Document.AddSectionThenSet | src/IniFileParser.Tests/Unit/INIDataTests.cs:53-58 | add then read: after `AddSection`, writing a key succeeds, and the key is contained and reads the written value |
| Document.Merge | src/IniFileParser.Tests/Unit/INIDataTests.cs:187 | merge keeps the target's policy, never shrinks the global keys or the sections, keeps the target's section names and comments in place, and keeps a well-formed target well formed whatever the source holds |
| Document.MergeValues | src/IniFileParser.Tests/Unit/INIDataTests.cs:187-213 | after a merge, every global key and section key reads the source's value when the source holds it and the target's value otherwise; a section exists exactly when either side has it |
| Document.MergeKeepsTargetSections | src/IniFileParser.Tests/Unit/INIDataTests.cs:202-207 | a section only the target holds is unchanged by the merge; a shared section keeps the target's comments |
| Document.MergeSectionCount | src/IniFileParser.Tests/Unit/INIDataTests.cs:193 | after a merge the section count is the number of distinct section names of the two documents |
| Document.DeepClone | src/IniFileParser.Tests/Unit/INIDataTests.cs:123 | the clone is equal to the original |
| Document.DeepCloneIndependent | src/IniFileParser.Tests/Unit/INIDataTests.cs:116-130 | a global write and a section write (each with its own name and value) to a clone change what the clone reads only at the written names, and change nothing the original reads |
| Document.ClearAllComments | src/IniFileParser.Tests/Unit/INIDataTests.cs:42-46 | every comment list (global keys, sections, keys inside sections) is empty, and the shape of the document is kept |
| Document.ClearAllCommentsKeepsValues | src/IniFileParser.Tests/Unit/INIDataTests.cs:42-46 | only comments change: every global key, section and section key reads and exists as before |
| Document.ClearAllCommentsEmptiesLookups | src/IniFileParser.Tests/Unit/INIDataTests.cs:44-46 | after clearing, `GetKeyData` on the global keys, `GetSectionData`, and `GetKeyData` in a section all find entries with no comments |
| Document.ClearAllCommentsWellFormed | src/IniFileParser.Tests/Unit/INIDataTests.cs:42 | clearing keeps the document well formed |
| Document.ClearAllCommentsIdempotent | src/IniFileParser.Tests/Unit/INIDataTests.cs:42 | clearing twice is clearing once |
| Parser.Lex | src/IniFileParser.Tests/Unit/INIDataTests.cs:25-31 | a trimmed line is blank exactly when empty; comments start with the marker and headers with the section start; key lines start with neither and have trimmed key and value; a line without the delimiter has no occurrence of it anywhere |
| Parser.ClassifyBlank | src/IniFileParser.Tests/Unit/INIDataTests.cs:29 | a raw line is blank exactly when it is all whitespace |
| Parser.ClassifyFramed | src/IniFileParser.Tests/Unit/INIDataTests.cs:85-87 | indentation and trailing whitespace do not change what a line is |
| Parser.LexKeyValue | src/IniFileParser.Tests/Unit/INIDataTests.cs:221-230 | a key line splits at the first delimiter into the trimmed key and trimmed value, even when the value contains the delimiter |
| Parser.LexComment | src/IniFileParser.Tests/Unit/INIDataTests.cs:13-15 | a comment line is the marker followed by its trimmed text |
| Parser.LexHeader | src/IniFileParser.Tests/Unit/INIDataTests.cs:28 | `[name]` is a header with the trimmed name |
| Parser.Step | src/IniFileParser.Tests/Unit/INIDataTests.cs:25-31 | a blank line changes nothing (pending comments survive it); a comment only extends the pending comments; a malformed header and a line without a delimiter fail with their line; headers and key lines go to the operations below |
| Parser.OpenSection | src/IniFileParser.Tests/Unit/INIDataTests.cs:27-28 | a header fails exactly for a repeated section when duplicates are forbidden; otherwise the section becomes current, the pending comments are consumed, global keys are unchanged, and a new section is appended carrying the pending comments |
| Parser.AddProperty | src/IniFileParser.Tests/Unit/INIDataTests.cs:13-14 | a key line fails exactly for a repeated key when duplicates are forbidden; otherwise the current collection gets the key with the pending comments, which are consumed; a key line before any header leaves the sections unchanged, and one inside a section leaves the global keys, every other section, and the current section's name and comments unchanged |
| Parser.ParseLines | src/IniFileParser.Tests/Unit/INIDataTests.cs:17 | the state stays valid, keeps the policy and keeps a well-formed document well formed; a failure names a line of the input and its text |
| Parser.Parse | src/IniFileParser.Tests/Unit/INIDataTests.cs:17 | a parsed document is well formed under the configured policy; a failure carries a 1-based line number and that line's text |
| Parser.ParseLinesAppend | src/IniFileParser.Tests/Unit/INIDataTests.cs:17 | parsing a + b is parsing a, then b from where a stopped, or a's failure |
| Parser.TrailingCommentDropped | src/IniFileParser.Tests/Unit/INIDataTests.cs:13-19 | a comment line after the last element attaches to nothing: appending one leaves the parse result unchanged |
| Parser.LexLinesSnoc | src/IniFileParser.Tests/Unit/INIDataTests.cs:13-15 | lexing is line by line: an appended line is lexed on its own |
| Fixture.PropertyLine | src/IniFileParser.Tests/Unit/INIDataTests.cs:221-223 | a possibly indented key line is the key value pair split at the first delimiter, for any scheme with non-empty comment and section markers and a non-empty delimiter, provided the key starts with neither marker and holds no occurrence of the delimiter's first character |
| Fixture.KeyLine | src/IniFileParser.Tests/Unit/INIDataTests.cs:85-87 | an indented `key = value` line under the default scheme is that key and value |
| Fixture.LineBla | src/IniFileParser.Tests/Unit/INIDataTests.cs:223-226 | with delimiter ` =`, `bla= = 1` is the key `bla=` with value `1` |
| Scenarios.ParseCommentsScenario | src/IniFileParser.Tests/Unit/INIDataTests.cs:13-19 | the fixture parses to one global key `key1` = `2` whose comments are `comment1`; the trailing `comment2` attaches to nothing |
| Scenarios.DeleteCommentsScenario | src/IniFileParser.Tests/Unit/INIDataTests.cs:25-46 | the fixture parses with `comment1` on `key1`, `comment2` on `section1`, and `a value` on `value1` across the blank line; clearing empties all three and keeps every value |
| Scenarios.AddKeyDataScenario | src/IniFileParser.Tests/Unit/INIDataTests.cs:53-58 | a key added to a freshly added section reads `value1` |
| Scenarios.CaseInsensitiveSectionScenario | src/IniFileParser.Tests/Unit/INIDataTests.cs:65-79 | the section is built on its own, case-sensitively, and added to a case-insensitive document; both spellings of the section resolve; `key1` and `keY1` read `value1`; `KEY2`, `KeY2` and `key2` read `value3` |
| Scenarios.StandaloneWrites | src/IniFileParser.Tests/Unit/INIDataTests.cs:66-69 | the standalone section holds three distinct keys `keY1`, `KEY2` and `KeY2` |
| Scenarios.StandaloneLastMatch | src/IniFileParser.Tests/Unit/INIDataTests.cs:73-79 | under the case-insensitive policy the last standalone key equivalent to a spelling of `key1` is `keY1`, and of `key2` is `KeY2` |
| Scenarios.StandaloneReads | src/IniFileParser.Tests/Unit/INIDataTests.cs:73-79 | once re-keyed, every spelling of `key1` reads `value1` and every spelling of `key2` reads `value3` |
| Scenarios.CaseSectionLookup | src/IniFileParser.Tests/Unit/INIDataTests.cs:71-76 | after the section is added, every spelling of its name resolves to its re-keyed keys |
| Scenarios.ParseCaseInsensitiveScenario | src/IniFileParser.Tests/Unit/INIDataTests.cs:85-94 | with the case-insensitive option, the indented fixture parses to section `TestSection` with keys `KEY1` and `KEY2`, which read back as `testsection`/`key1` and `testSection`/`Key2` |
| Scenarios.CaseInsensitiveGlobalScenario | src/IniFileParser.Tests/Unit/INIDataTests.cs:101-110 | two `AddKey` calls and an indexed write into the global keys give `value1` for both spellings of `key1`, and `value3` for all three of `key2` |
| Scenarios.DeepCloneScenario | src/IniFileParser.Tests/Unit/INIDataTests.cs:116-130 | the fixture parses to `global` = `1` and `section`/`key` = `1`; the writes into the clone succeed and the original still reads `1` for both |
| Scenarios.AddSectionWriteTwo | src/IniFileParser.Tests/Unit/INIDataTests.cs:141-146 | after adding a section and writing two distinct keys into it, both writes succeed and both keys are contained with their values |
| Scenarios.ProgrammaticScenario | src/IniFileParser.Tests/Unit/INIDataTests.cs:138-153 | the document built in code contains `Type` and `RelativePath` in both `MainRepository` and `AssetsRepository` |
| Scenarios.MergeParsedScenario | src/IniFileParser.Tests/Unit/INIDataTests.cs:156-213 | both fixtures parse to their documents; the merge reads `g` = `11`, `j` = `a`, `s0` = {a: 22, b: 44}, `s1` = {a: 3, b: 4} and `s2` = {c: 55}, and has 3 sections |
| Scenarios.MergedS0 | src/IniFileParser.Tests/Unit/INIDataTests.cs:195-200 | the merged `s0` exists under its own name and reads the source's values |
| Scenarios.MergedS1 | src/IniFileParser.Tests/Unit/INIDataTests.cs:202-207 | the target-only `s1` exists under its own name and keeps its values |
| Scenarios.MergedS2 | src/IniFileParser.Tests/Unit/INIDataTests.cs:209-213 | the source-only `s2` exists under its own name with its value |
| Scenarios.KeyContainingSeparatorScenario | src/IniFileParser.Tests/Unit/INIDataTests.cs:221-230 | with delimiter ` =`, the fixture parses to section `section` holding key `bla=` = `1`, which is contained and reads `1` |

## Left out

- Loading from files, streams and paths, and writing a document back to text, are left out. The parser takes the already-split lines.
- Culture-aware case folding is replaced by ASCII lower case (`Text.Lower`). Trimming (`Text.Trim`) removes the characters .NET counts as white space.
- Inline (trailing) comments after a header or a value are not modelled. Text after the closing `]` of a header is ignored. A `;` inside a value stays part of the value.
- Continue-on-error leniency (collecting a batch of errors) is not modelled. Parsing stops at the first failing line.
- `AddKey` on a name that already exists overwrites the value, as an indexed write does. No test fixes this case; the library may instead reject it as a duplicate.
- Comma-merging of duplicate keys is not modelled. Per the configuration flags, a repeated key either overwrites the value and comments or fails, and a repeated section either fails or is reopened, with the pending comments appended to its own.
- Value-less keys are not modelled. A non-comment, non-header line without the delimiter is always a `MissingDelimiter` failure.
- Whitespace trimming is always on. The trimming flags of the configuration are not modelled.
- `RemoveSection`, `RemoveKey`, section renaming and iteration are not modelled. No test exercises them.
- Values stay opaque strings. `10.6` and `True` are not interpreted.
- `DeepClone` copies by value. The model has no references, so aliasing cannot be expressed. Independence is stated by `Document.DeepCloneIndependent` as reads after writes.
- Document.MergeValues: stated only for a source with the target's case policy. The source is also assumed well formed (unique names). Both hold for documents built by the parser under one configuration, as in the test at lines 181-187.
- Document.MergeKeepsTargetSections: stated under the same condition of one policy and a well-formed source.
- Document.MergeSectionCount: stated under the same condition, with the target also well formed.
- Document.SetValue: writing into a missing section yields no document (`None`). The library's indexer raises a not-found condition there.
- Parser.Parse: as a modelling choice, the default configuration (`DefaultConfiguration`) forbids duplicate keys and sections. No test fixes this default.

=== FILE: collection.dfy ===
/** The ordered, name-indexed collection shared by key collections and
    section collections. Entries keep insertion order; every lookup,
    insertion and duplicate check goes through one case policy. */
module Collection {
  import opened Wrappers
  import opened Names

  /** A named element of a collection: the name it is looked up by, its
      leading comment lines, and its payload (a value for a key, a key
      collection for a section). */
  datatype Entry<V> = Entry(name: string, comments: seq<string>, data: V)

  /** Position of the first entry whose name is `name` under `p`. */
  function IndexOf<V>(p: CasePolicy, xs: seq<Entry<V>>, name: string): (r: Option<nat>)
    ensures r.Some? ==> r.value < |xs| && Same(p, xs[r.value].name, name)
    ensures r.Some? ==> forall j :: 0 <= j < r.value ==> !Same(p, xs[j].name, name)
    ensures r.None? ==> forall j :: 0 <= j < |xs| ==> !Same(p, xs[j].name, name)
  {
    IndexFrom(p, xs, name, 0)
  }

  /** Position of the first entry at or after `k` whose name is `name`. */
  function IndexFrom<V>(p: CasePolicy, xs: seq<Entry<V>>, name: string, k: nat): (r: Option<nat>)
    requires k <= |xs|
    ensures r.Some? ==> k <= r.value < |xs| && Same(p, xs[r.value].name, name)
    ensures r.Some? ==> forall j :: k <= j < r.value ==> !Same(p, xs[j].name, name)
    ensures r.None? ==> forall j :: k <= j < |xs| ==> !Same(p, xs[j].name, name)
    decreases |xs| - k
  {
    if k == |xs| then None
    else if Same(p, xs[k].name, name) then Some(k)
    else IndexFrom(p, xs, name, k + 1)
  }

  /** Some entry of `xs` is named `name` under `p`. */
  predicate Contains<V>(p: CasePolicy, xs: seq<Entry<V>>, name: string)
  {
    IndexOf(p, xs, name).Some?
  }

  /** The entry named `name` under `p`, if any. */
  function Find<V>(p: CasePolicy, xs: seq<Entry<V>>, name: string): (r: Option<Entry<V>>)
    ensures r.Some? <==> Contains(p, xs, name)
    ensures r.Some? ==> r.value in xs && Same(p, r.value.name, name)
  {
    match IndexOf(p, xs, name)
    case Some(i) => Some(xs[i])
    case None => None
  }

  /** No two entries share a name under `p`. */
  predicate Unique<V>(p: CasePolicy, xs: seq<Entry<V>>) {
    forall i, j :: 0 <= i < j < |xs| ==> !Same(p, xs[i].name, xs[j].name)
  }

  /** Some entry is named `name` exactly when Contains says so. */
  lemma ContainsIff<V>(p: CasePolicy, xs: seq<Entry<V>>, name: string)
    ensures Contains(p, xs, name) <==> exists j :: 0 <= j < |xs| && Same(p, xs[j].name, name)
  {
  }

  /** The first entry named `n` is the one found. */
  lemma FindAt<V>(p: CasePolicy, xs: seq<Entry<V>>, i: nat, n: string)
    requires i < |xs| && Same(p, xs[i].name, n)
    requires forall j :: 0 <= j < i ==> !Same(p, xs[j].name, n)
    ensures Find(p, xs, n) == Some(xs[i])
  {
    var k := IndexOf(p, xs, n).value;
    assert !(k < i) && !(i < k);
  }

  /** No entry named `n`: nothing is found. */
  lemma FindNone<V>(p: CasePolicy, xs: seq<Entry<V>>, n: string)
    requires forall j :: 0 <= j < |xs| ==> !Same(p, xs[j].name, n)
    ensures Find(p, xs, n) == None
  {
  }

  /** Lookups depend on the name only through its normal form: every
      spelling of a name that is the same under `p` finds the same entry. */
  lemma FindRespectsSame<V>(p: CasePolicy, xs: seq<Entry<V>>, a: string, b: string)
    requires Same(p, a, b)
    ensures Find(p, xs, a) == Find(p, xs, b)
  {
    match IndexOf(p, xs, a)
    case Some(i) => FindAt(p, xs, i, b);
    case None => FindNone(p, xs, b);
  }

  /** In a collection without duplicates, the entry at any position is the
      one found by its name. */
  lemma FindUnique<V>(p: CasePolicy, xs: seq<Entry<V>>, i: nat, name: string)
    requires Unique(p, xs)
    requires i < |xs| && Same(p, xs[i].name, name)
    ensures Find(p, xs, name) == Some(xs[i])
  {
    forall j | 0 <= j < i
      ensures !Same(p, xs[j].name, name)
    {
      assert !Same(p, xs[j].name, xs[i].name);
    }
    FindAt(p, xs, i, name);
  }

  /** Replacing the first entry named `key` by an entry `y` of the same
      name: that name now finds `y`, every other name finds what it found
      before. */
  lemma FindAfterReplace<V>(p: CasePolicy, xs: seq<Entry<V>>, i: nat, y: Entry<V>, key: string, n: string)
    requires IndexOf(p, xs, key) == Some(i) && Same(p, y.name, key)
    ensures Find(p, xs[i := y], n) == if Same(p, key, n) then Some(y) else Find(p, xs, n)
  {
    var r := xs[i := y];
    if Same(p, key, n) {
      FindAt(p, r, i, n);
    } else {
      match IndexOf(p, xs, n)
      case Some(k) =>
        assert k != i;
        FindAt(p, r, k, n);
      case None =>
        FindNone(p, r, n);
    }
  }

  /** Appending an entry whose name is new: that name now finds it, every
      other name finds what it found before. */
  lemma FindAfterAppend<V>(p: CasePolicy, xs: seq<Entry<V>>, e: Entry<V>, n: string)
    requires !Contains(p, xs, e.name)
    ensures Find(p, xs + [e], n) == if Same(p, e.name, n) then Some(e) else Find(p, xs, n)
  {
    var r := xs + [e];
    if Same(p, e.name, n) {
      FindAt(p, r, |xs|, n);
    } else {
      match IndexOf(p, xs, n)
      case Some(k) => FindAt(p, r, k, n);
      case None => FindNone(p, r, n);
    }
  }

  /** Create-or-overwrite: replaces the payload of the entry named `name`
      (keeping its stored name and comments), or appends a new entry with
      no comments. */
  function Upsert<V>(p: CasePolicy, xs: seq<Entry<V>>, name: string, data: V): (r: seq<Entry<V>>)
    ensures |r| == if Contains(p, xs, name) then |xs| else |xs| + 1
    ensures forall i :: 0 <= i < |xs| ==> r[i].name == xs[i].name && r[i].comments == xs[i].comments
    ensures forall i :: 0 <= i < |xs| && !Same(p, xs[i].name, name) ==> r[i] == xs[i]
    ensures !Contains(p, xs, name) ==> r[|xs|] == Entry(name, [], data)
    ensures Unique(p, xs) ==> Unique(p, r)
  {
    match IndexOf(p, xs, name)
    case Some(i) => xs[i := xs[i].(data := data)]
    case None => xs + [Entry(name, [], data)]
  }

  /** Reading after create-or-overwrite: the written name yields the new
      payload, every other name yields what it yielded before. */
  lemma FindAfterUpsert<V>(p: CasePolicy, xs: seq<Entry<V>>, name: string, data: V, other: string)
    ensures Find(p, Upsert(p, xs, name, data), other) ==
      if Same(p, name, other) then
        Some(match Find(p, xs, name)
             case Some(e) => e.(data := data)
             case None => Entry(name, [], data))
      else Find(p, xs, other)
  {
    var r := Upsert(p, xs, name, data);
    match IndexOf(p, xs, name)
    case Some(i) =>
      var y := xs[i].(data := data);
      assert r == xs[i := y];
      assert Find(p, xs, name) == Some(xs[i]);
      FindAfterReplace(p, xs, i, y, name, other);
    case None =>
      assert r == xs + [Entry(name, [], data)];
      assert Find(p, xs, name) == None;
      FindAfterAppend(p, xs, Entry(name, [], data), other);
  }

  /** Insertion of a whole entry: replaces the payload and comments of the
      entry named `e.name` (keeping its stored name), or appends `e`. */
  function Put<V>(p: CasePolicy, xs: seq<Entry<V>>, e: Entry<V>): (r: seq<Entry<V>>)
    ensures |r| == if Contains(p, xs, e.name) then |xs| else |xs| + 1
    ensures forall i :: 0 <= i < |xs| ==> r[i].name == xs[i].name
    ensures forall i :: 0 <= i < |xs| && !Same(p, xs[i].name, e.name) ==> r[i] == xs[i]
    ensures !Contains(p, xs, e.name) ==> r[|xs|] == e
    ensures forall i :: 0 <= i < |r| ==> (r[i].data == e.data && r[i].comments == e.comments) || (i < |xs| && r[i] == xs[i])
    ensures Unique(p, xs) ==> Unique(p, r)
  {
    match IndexOf(p, xs, e.name)
    case Some(i) => xs[i := xs[i].(comments := e.comments, data := e.data)]
    case None => xs + [e]
  }

  /** Reading after Put: the put name yields `e`'s payload and comments
      under the stored name, every other name what it yielded before. */
  lemma FindAfterPut<V>(p: CasePolicy, xs: seq<Entry<V>>, e: Entry<V>, other: string)
    ensures Find(p, Put(p, xs, e), other) ==
      if Same(p, e.name, other) then
        Some(match Find(p, xs, e.name)
             case Some(x) => x.(comments := e.comments, data := e.data)
             case None => e)
      else Find(p, xs, other)
  {
    var r := Put(p, xs, e);
    match IndexOf(p, xs, e.name)
    case Some(i) =>
      var y := xs[i].(comments := e.comments, data := e.data);
      assert r == xs[i := y];
      assert Find(p, xs, e.name) == Some(xs[i]);
      FindAfterReplace(p, xs, i, y, e.name, other);
    case None =>
      assert r == xs + [e];
      assert Find(p, xs, e.name) == None;
      FindAfterAppend(p, xs, e, other);
  }

  /** `xs` copied entry by entry, in order, into an empty collection under
      `p`: an entry whose name matches an earlier one replaces that one's
      payload and comments, and the earlier stored name stays. */
  function Rebuild<V>(p: CasePolicy, xs: seq<Entry<V>>): (r: seq<Entry<V>>)
    ensures Unique(p, r) && |r| <= |xs|
    decreases |xs|
  {
    if |xs| == 0 then [] else Put(p, Rebuild(p, xs[..|xs| - 1]), xs[|xs| - 1])
  }

  /** The last entry of `xs` whose name is `n` under `p`, if any: the
      reference that re-keying is read against. */
  function LastMatch<V>(p: CasePolicy, xs: seq<Entry<V>>, n: string): Option<Entry<V>>
    decreases |xs|
  {
    if |xs| == 0 then None
    else if Same(p, xs[|xs| - 1].name, n) then Some(xs[|xs| - 1])
    else LastMatch(p, xs[..|xs| - 1], n)
  }

  /** `LastMatch` finds nothing exactly when no name matches. */
  lemma {:induction false} LastMatchNone<V>(p: CasePolicy, xs: seq<Entry<V>>, n: string)
    ensures LastMatch(p, xs, n).None? <==> forall i :: 0 <= i < |xs| ==> !Same(p, xs[i].name, n)
    decreases |xs|
  {
    if |xs| > 0 && !Same(p, xs[|xs| - 1].name, n) {
      var init := xs[..|xs| - 1];
      LastMatchNone(p, init, n);
      assert forall i :: 0 <= i < |init| ==> init[i] == xs[i];
    }
  }

  /** A match in `init` that no later entry of `init` matches stays the
      last match once a non-matching `e` is appended. */
  lemma NoLaterMatch<V>(p: CasePolicy, init: seq<Entry<V>>, e: Entry<V>, n: string, i: nat)
    requires i < |init| && !Same(p, e.name, n)
    requires forall j :: i < j < |init| ==> !Same(p, init[j].name, n)
    ensures var xs := init + [e]; forall j :: i < j < |xs| ==> !Same(p, xs[j].name, n)
  {
    var xs := init + [e];
    forall j | i < j < |xs| ensures !Same(p, xs[j].name, n) {
      if j < |init| { assert xs[j] == init[j]; }
    }
  }

  /** The position of what `LastMatch` finds: a matching entry that no
      later entry matches. */
  lemma {:induction false} LastMatchAt<V>(p: CasePolicy, xs: seq<Entry<V>>, n: string) returns (i: nat)
    requires LastMatch(p, xs, n).Some?
    ensures i < |xs| && xs[i] == LastMatch(p, xs, n).value && Same(p, xs[i].name, n)
    ensures forall j :: i < j < |xs| ==> !Same(p, xs[j].name, n)
    decreases |xs|
  {
    if Same(p, xs[|xs| - 1].name, n) {
      i := |xs| - 1;
    } else {
      var init := xs[..|xs| - 1];
      assert LastMatch(p, xs, n) == LastMatch(p, init, n);
      i := LastMatchAt(p, init, n);
      assert xs[i] == init[i] && xs == init + [xs[|xs| - 1]];
      NoLaterMatch(p, init, xs[|xs| - 1], n, i);
    }
  }

  /** What `LastMatch` finds is a matching entry that no later entry matches. */
  lemma LastMatchLast<V>(p: CasePolicy, xs: seq<Entry<V>>, n: string)
    ensures LastMatch(p, xs, n).Some? ==>
      exists i :: (0 <= i < |xs| && xs[i] == LastMatch(p, xs, n).value && Same(p, xs[i].name, n) &&
                   forall j :: i < j < |xs| ==> !Same(p, xs[j].name, n))
  {
    if LastMatch(p, xs, n).Some? {
      var i := LastMatchAt(p, xs, n);
    }
  }

  /** Reading a rebuilt collection: a name is found exactly when some entry
      carried it, and it yields the payload and comments of the last such
      entry. */
  lemma {:induction false} FindAfterRebuild<V>(p: CasePolicy, xs: seq<Entry<V>>, n: string)
    ensures Find(p, Rebuild(p, xs), n).Some? <==> LastMatch(p, xs, n).Some?
    ensures LastMatch(p, xs, n).Some? ==>
      && Find(p, Rebuild(p, xs), n).value.data == LastMatch(p, xs, n).value.data
      && Find(p, Rebuild(p, xs), n).value.comments == LastMatch(p, xs, n).value.comments
    decreases |xs|
  {
    if |xs| > 0 {
      var init := xs[..|xs| - 1];
      var e := xs[|xs| - 1];
      FindAfterRebuild(p, init, n);
      FindAfterPut(p, Rebuild(p, init), e, n);
    }
  }

  /** A duplicate-free collection with its last entry removed is still
      duplicate-free and does not hold that entry's name. */
  lemma UniqueSnoc<V>(p: CasePolicy, init: seq<Entry<V>>, e: Entry<V>)
    requires Unique(p, init + [e])
    ensures Unique(p, init) && !Contains(p, init, e.name)
  {
    var xs := init + [e];
    assert forall i :: 0 <= i < |init| ==> init[i] == xs[i];
    ContainsIff(p, init, e.name);
    assert forall j :: 0 <= j < |init| ==> !Same(p, init[j].name, xs[|init|].name);
  }

  /** Rebuilding a collection whose names are already unique changes nothing. */
  lemma {:induction false} RebuildUnique<V>(p: CasePolicy, xs: seq<Entry<V>>)
    requires Unique(p, xs)
    ensures Rebuild(p, xs) == xs
    decreases |xs|
  {
    if |xs| > 0 {
      var init := xs[..|xs| - 1];
      var e := xs[|xs| - 1];
      assert init + [e] == xs;
      UniqueSnoc(p, init, e);
      RebuildUnique(p, init);
    }
  }

  /** Appends `e` unless an entry of the same name is already present, in
      which case the collection is returned unchanged. */
  function AddIfAbsent<V>(p: CasePolicy, xs: seq<Entry<V>>, e: Entry<V>): (r: seq<Entry<V>>)
    ensures Contains(p, xs, e.name) ==> r == xs
    ensures !Contains(p, xs, e.name) ==> r == xs + [e]
    ensures Contains(p, r, e.name)
    ensures Unique(p, xs) ==> Unique(p, r)
  {
    if Contains(p, xs, e.name) then xs
    else
      assert Same(p, (xs + [e])[|xs|].name, e.name);
      xs + [e]
  }

  /** The merged view of one name: a target entry gets its payload combined
      with the source's, a source-only entry is taken as is, a target-only
      entry stays. */
  function Combined<V>(t: Option<Entry<V>>, s: Option<Entry<V>>, combine: (V, V) -> V): Option<Entry<V>>
  {
    match t
    case Some(x) =>
      (match s
       case Some(y) => Some(x.(data := combine(x.data, y.data)))
       case None => Some(x))
    case None => s
  }

  /** Merges one source entry into `t`. */
  function MergeOne<V>(p: CasePolicy, t: seq<Entry<V>>, e: Entry<V>, combine: (V, V) -> V): (r: seq<Entry<V>>)
    ensures |t| <= |r|
    ensures forall i :: 0 <= i < |t| ==> r[i].name == t[i].name && r[i].comments == t[i].comments
    ensures Unique(p, t) ==> Unique(p, r)
  {
    match IndexOf(p, t, e.name)
    case Some(i) => t[i := t[i].(data := combine(t[i].data, e.data))]
    case None => t + [e]
  }

  lemma FindAfterMergeOne<V>(p: CasePolicy, t: seq<Entry<V>>, e: Entry<V>, combine: (V, V) -> V, n: string)
    ensures Find(p, MergeOne(p, t, e, combine), n) ==
      if Same(p, e.name, n) then Combined(Find(p, t, n), Some(e), combine) else Find(p, t, n)
  {
    var r := MergeOne(p, t, e, combine);
    match IndexOf(p, t, e.name)
    case Some(i) =>
      var y := t[i].(data := combine(t[i].data, e.data));
      assert r == t[i := y];
      FindAfterReplace(p, t, i, y, e.name, n);
      if Same(p, e.name, n) {
        FindRespectsSame(p, t, e.name, n);
        assert Find(p, t, n) == Some(t[i]);
      }
    case None =>
      assert r == t + [e];
      FindAfterAppend(p, t, e, n);
      if Same(p, e.name, n) {
        FindRespectsSame(p, t, e.name, n);
        assert Find(p, t, n) == None;
      }
  }

  /** Applies `source` on top of `target`, entry by entry in source order:
      an entry already present has its payload combined with the source's,
      any other source entry is appended. Nothing is removed. */
  function Merge<V>(p: CasePolicy, target: seq<Entry<V>>, source: seq<Entry<V>>, combine: (V, V) -> V): (r: seq<Entry<V>>)
    ensures |target| <= |r|
    ensures forall i :: 0 <= i < |target| ==> r[i].name == target[i].name && r[i].comments == target[i].comments
    ensures Unique(p, target) ==> Unique(p, r)
    decreases |source|
  {
    if |source| == 0 then target
    else Merge(p, MergeOne(p, target, source[0], combine), source[1..], combine)
  }

  /** A lookup either stops at the first entry or continues in the rest. */
  lemma FindCons<V>(p: CasePolicy, xs: seq<Entry<V>>, n: string)
    requires |xs| > 0
    ensures Find(p, xs, n) == if Same(p, xs[0].name, n) then Some(xs[0]) else Find(p, xs[1..], n)
  {
    var rest := xs[1..];
    if Same(p, xs[0].name, n) {
      FindAt(p, xs, 0, n);
    } else {
      match IndexOf(p, rest, n)
      case Some(k) =>
        assert xs[k + 1] == rest[k];
        forall j | 0 <= j < k + 1
          ensures !Same(p, xs[j].name, n)
        {
          if j > 0 { assert xs[j] == rest[j - 1]; }
        }
        FindAt(p, xs, k + 1, n);
      case None =>
        forall j | 0 <= j < |xs|
          ensures !Same(p, xs[j].name, n)
        {
          if j > 0 { assert xs[j] == rest[j - 1]; }
        }
        FindNone(p, xs, n);
    }
  }

  /** Without duplicates, the name of the first entry is absent from the rest,
      and the rest has no duplicates either. */
  lemma UniqueTail<V>(p: CasePolicy, xs: seq<Entry<V>>, n: string)
    requires Unique(p, xs) && |xs| > 0
    ensures Unique(p, xs[1..])
    ensures Same(p, xs[0].name, n) ==> Find(p, xs[1..], n) == None
  {
    var rest := xs[1..];
    forall i, j | 0 <= i < j < |rest|
      ensures !Same(p, rest[i].name, rest[j].name)
    {
      assert rest[i] == xs[i + 1] && rest[j] == xs[j + 1];
    }
    if Same(p, xs[0].name, n) {
      forall j | 0 <= j < |rest|
        ensures !Same(p, rest[j].name, n)
      {
        assert rest[j] == xs[j + 1];
        assert !Same(p, xs[0].name, xs[j + 1].name);
      }
      FindNone(p, rest, n);
    }
  }

  /** Merge, name by name: for every name the result holds exactly the
      combination of what the target and the source hold under that name. */
  lemma {:induction false} FindAfterMerge<V>(p: CasePolicy, target: seq<Entry<V>>, source: seq<Entry<V>>, combine: (V, V) -> V, n: string)
    requires Unique(p, source)
    ensures Find(p, Merge(p, target, source, combine), n) == Combined(Find(p, target, n), Find(p, source, n), combine)
    decreases |source|
  {
    if |source| > 0 {
      var t1 := MergeOne(p, target, source[0], combine);
      UniqueTail(p, source, n);
      FindAfterMerge(p, t1, source[1..], combine, n);
      FindAfterMergeOne(p, target, source[0], combine, n);
      FindCons(p, source, n);
    }
  }

  /** The set of normal forms of the names in `xs`. */
  function NameSet<V>(p: CasePolicy, xs: seq<Entry<V>>): (r: set<string>)
    ensures |r| <= |xs|
    ensures forall j :: 0 <= j < |xs| ==> Normalize(p, xs[j].name) in r
  {
    if |xs| == 0 then {} else {Normalize(p, xs[0].name)} + NameSet(p, xs[1..])
  }

  /** A name that matches no entry is not in the name set. */
  lemma {:induction false} NotInNameSet<V>(p: CasePolicy, xs: seq<Entry<V>>, name: string)
    requires forall j :: 0 <= j < |xs| ==> !Same(p, xs[j].name, name)
    ensures Normalize(p, name) !in NameSet(p, xs)
  {
    if |xs| > 0 {
      NotInNameSet(p, xs[1..], name);
    }
  }

  /** A collection without duplicates holds one entry per distinct name. */
  lemma {:induction false} UniqueSize<V>(p: CasePolicy, xs: seq<Entry<V>>)
    requires Unique(p, xs)
    ensures |NameSet(p, xs)| == |xs|
  {
    if |xs| > 0 {
      var rest := xs[1..];
      assert Unique(p, rest);
      UniqueSize(p, rest);
      forall j | 0 <= j < |rest|
        ensures !Same(p, rest[j].name, xs[0].name)
      {
        assert rest[j] == xs[j + 1];
      }
      NotInNameSet(p, rest, xs[0].name);
    }
  }

  /** Membership in the name set is having an entry with that normal form. */
  lemma {:induction false} NameSetMembers<V>(p: CasePolicy, xs: seq<Entry<V>>, x: string)
    ensures x in NameSet(p, xs) <==> exists j :: 0 <= j < |xs| && Normalize(p, xs[j].name) == x
  {
    if |xs| > 0 {
      NameSetMembers(p, xs[1..], x);
      if x in NameSet(p, xs[1..]) {
        var j :| 0 <= j < |xs[1..]| && Normalize(p, xs[1..][j].name) == x;
        assert xs[j + 1] == xs[1..][j];
      }
      if exists j :: 0 <= j < |xs| && Normalize(p, xs[j].name) == x {
        var j :| 0 <= j < |xs| && Normalize(p, xs[j].name) == x;
        if j > 0 {
          assert xs[1..][j - 1] == xs[j];
        }
      }
    }
  }

  /** Create-or-overwrite adds the written name to the name set and nothing else. */
  lemma NameSetAfterUpsert<V>(p: CasePolicy, xs: seq<Entry<V>>, name: string, data: V)
    ensures NameSet(p, Upsert(p, xs, name, data)) == NameSet(p, xs) + {Normalize(p, name)}
  {
    var r := Upsert(p, xs, name, data);
    forall x
      ensures x in NameSet(p, r) <==> x in NameSet(p, xs) + {Normalize(p, name)}
    {
      NameSetMembers(p, r, x);
      NameSetMembers(p, xs, x);
      if x in NameSet(p, r) {
        var j :| 0 <= j < |r| && Normalize(p, r[j].name) == x;
        if j < |xs| {
          assert Normalize(p, xs[j].name) == x;
        }
      }
      if x in NameSet(p, xs) {
        var j :| 0 <= j < |xs| && Normalize(p, xs[j].name) == x;
        assert Normalize(p, r[j].name) == x;
      }
      if x == Normalize(p, name) {
        match IndexOf(p, xs, name)
        case Some(i) => assert Normalize(p, r[i].name) == x;
        case None => assert Normalize(p, r[|xs|].name) == x;
      }
    }
  }

  /** Forgets every comment of `xs` and rewrites each payload with `f`;
      names and order are kept. */
  function ClearComments<V>(xs: seq<Entry<V>>, f: V -> V): (r: seq<Entry<V>>)
    ensures |r| == |xs|
    ensures forall i :: 0 <= i < |xs| ==> r[i] == Entry(xs[i].name, [], f(xs[i].data))
  {
    seq(|xs|, i requires 0 <= i < |xs| => Entry(xs[i].name, [], f(xs[i].data)))
  }

  /** A lookup in the cleared collection finds the cleared form of what the
      original lookup found; uniqueness is unaffected. */
  lemma FindAfterClearComments<V>(p: CasePolicy, xs: seq<Entry<V>>, f: V -> V, n: string)
    ensures Find(p, ClearComments(xs, f), n) ==
      match Find(p, xs, n)
      case Some(e) => Some(Entry(e.name, [], f(e.data)))
      case None => None
    ensures Unique(p, xs) ==> Unique(p, ClearComments(xs, f))
  {
    var r := ClearComments(xs, f);
    match IndexOf(p, xs, n)
    case Some(i) => FindAt(p, r, i, n);
    case None => FindNone(p, r, n);
  }

  /** Every payload of `xs` transformed by `f`; names and comments stay. */
  function MapData<V>(xs: seq<Entry<V>>, f: V -> V): (r: seq<Entry<V>>)
    ensures |r| == |xs|
    ensures forall i :: 0 <= i < |xs| ==> r[i].name == xs[i].name && r[i].comments == xs[i].comments
  {
    seq(|xs|, i requires 0 <= i < |xs| => xs[i].(data := f(xs[i].data)))
  }

  /** A lookup in the transformed collection finds the transformed form of
      what the original lookup found; uniqueness is unaffected. */
  lemma FindAfterMapData<V>(p: CasePolicy, xs: seq<Entry<V>>, f: V -> V, n: string)
    ensures Find(p, MapData(xs, f), n) ==
      match Find(p, xs, n)
      case Some(e) => Some(e.(data := f(e.data)))
      case None => None
    ensures Unique(p, xs) ==> Unique(p, MapData(xs, f))
  {
    var r := MapData(xs, f);
    match IndexOf(p, xs, n)
    case Some(i) => FindAt(p, r, i, n);
    case None => FindNone(p, r, n);
  }

  /** Every payload of `xs` satisfies `P`. */
  ghost predicate AllData<V>(xs: seq<Entry<V>>, P: V -> bool) {
    forall i :: 0 <= i < |xs| ==> P(xs[i].data)
  }

  /** Merging one entry keeps `P` of every payload. */
  lemma MergeOneKeepsData<V>(p: CasePolicy, t: seq<Entry<V>>, e: Entry<V>, combine: (V, V) -> V, P: V -> bool)
    requires AllData(t, P) && P(e.data)
    requires forall a, b :: P(a) && P(b) ==> P(combine(a, b))
    ensures AllData(MergeOne(p, t, e, combine), P)
  {
    match IndexOf(p, t, e.name) {
      case Some(k) =>
        var y := t[k].(data := combine(t[k].data, e.data));
        assert P(y.data);
        assert MergeOne(p, t, e, combine) == t[k := y];
      case None =>
        assert MergeOne(p, t, e, combine) == t + [e];
    }
  }

  /** Every payload of a merge satisfies `P` when every payload of both
      sides does and combining keeps `P`. */
  lemma {:induction false} MergeKeepsData<V>(p: CasePolicy, target: seq<Entry<V>>, source: seq<Entry<V>>, combine: (V, V) -> V, P: V -> bool)
    requires AllData(target, P) && AllData(source, P)
    requires forall a, b :: P(a) && P(b) ==> P(combine(a, b))
    ensures AllData(Merge(p, target, source, combine), P)
    decreases |source|
  {
    if |source| > 0 {
      MergeOneKeepsData(p, target, source[0], combine, P);
      assert AllData(source[1..], P) by {
        forall i | 0 <= i < |source| - 1 ensures P(source[1..][i].data) {
          assert source[1..][i] == source[i + 1];
        }
      }
      MergeKeepsData(p, MergeOne(p, target, source[0], combine), source[1..], combine, P);
    }
  }
}

=== FILE: document.dfy ===
/** The INI document: one global key collection and one section collection,
    compared under one case policy, with merge, deep clone and comment
    clearing. */
module Document {
  import opened Wrappers
  import opened Names
  import opened Collection
  import opened Keys
  import opened Sections

  /** `IniData` (case-sensitive) or `IniDataCaseInsensitive`. */
  datatype IniData = IniData(policy: CasePolicy, global: seq<Property>, sections: seq<Section>)

  /** A new document with no keys and no sections. */
  function Empty(p: CasePolicy): IniData {
    IniData(p, [], [])
  }

  /** The document invariant: under the document's own policy, names are
      unique among the global keys, among the sections, and among the keys
      of each section. */
  predicate WellFormed(d: IniData) {
    && Unique(d.policy, d.global)
    && Unique(d.policy, d.sections)
    && forall i :: 0 <= i < |d.sections| ==> Unique(d.policy, d.sections[i].data)
  }

  /** `data[section]`: the keys of the named section, if it exists. */
  function SectionKeys(d: IniData, section: string): (r: Option<seq<Property>>)
    ensures r.Some? <==> ContainsSection(d.policy, d.sections, section)
    ensures r.Some? ==>
      exists i :: 0 <= i < |d.sections| && Same(d.policy, d.sections[i].name, section) && d.sections[i].data == r.value
  {
    match GetSectionData(d.policy, d.sections, section)
    case Some(s) => Some(s.data)
    case None => None
  }

  /** `data.Global[key]`. */
  function GetGlobal(d: IniData, key: string): (r: Option<string>)
    ensures r.Some? <==> ContainsKey(d.policy, d.global, key)
    ensures r.Some? ==> exists i :: 0 <= i < |d.global| && Same(d.policy, d.global[i].name, key) && d.global[i].data == r.value
  {
    Get(d.policy, d.global, key)
  }

  /** `data[section][key]`: None when the section or the key is absent. */
  function GetValue(d: IniData, section: string, key: string): (r: Option<string>)
    ensures r.Some? <==> SectionKeys(d, section).Some? && ContainsKey(d.policy, SectionKeys(d, section).value, key)
  {
    match SectionKeys(d, section)
    case Some(ks) => Get(d.policy, ks, key)
    case None => None
  }

  /** `data.Global[key] = value` (also `data.Global.AddKey(key, value)`). */
  function SetGlobal(d: IniData, key: string, value: string): (r: IniData)
    ensures r.policy == d.policy && r.sections == d.sections
    ensures forall k :: GetGlobal(r, k) == if Same(d.policy, key, k) then Some(value) else GetGlobal(d, k)
    ensures WellFormed(d) ==> WellFormed(r)
  {
    var r := d.(global := Set(d.policy, d.global, key, value));
    assert forall k :: GetGlobal(r, k) == if Same(d.policy, key, k) then Some(value) else GetGlobal(d, k) by {
      forall k ensures GetGlobal(r, k) == if Same(d.policy, key, k) then Some(value) else GetGlobal(d, k) {
        GetAfterSet(d.policy, d.global, key, value, k);
      }
    }
    r
  }

  /** `data[section][key] = value` (also `data[section].AddKey(key, value)`):
      create-or-overwrite inside an existing section. A missing section is
      a failure and no document is produced. */
  function SetValue(d: IniData, section: string, key: string, value: string): (r: Option<IniData>)
    ensures r.Some? <==> ContainsSection(d.policy, d.sections, section)
    ensures r.Some? ==> r.value.policy == d.policy && r.value.global == d.global
    ensures r.Some? ==> |r.value.sections| == |d.sections|
    ensures r.Some? && WellFormed(d) ==> WellFormed(r.value)
  {
    match IndexOf(d.policy, d.sections, section)
    case Some(i) =>
      var s := d.sections[i];
      Some(d.(sections := d.sections[i := s.(data := Set(d.policy, s.data, key, value))]))
    case None => None
  }

  /** Reading after a write into a section: the written section and key
      read the new value in any spelling the policy equates; every other
      (section, key) pair reads as before. */
  lemma GetAfterSetValue(d: IniData, section: string, key: string, value: string, s2: string, k2: string)
    requires SetValue(d, section, key, value).Some?
    ensures GetValue(SetValue(d, section, key, value).value, s2, k2) ==
      if Same(d.policy, section, s2) && Same(d.policy, key, k2) then Some(value)
      else GetValue(d, s2, k2)
  {
    var p := d.policy;
    var i := IndexOf(p, d.sections, section).value;
    var s := d.sections[i];
    var y := s.(data := Set(p, s.data, key, value));
    var d2 := SetValue(d, section, key, value).value;
    assert d2.sections == d.sections[i := y];
    FindAfterReplace(p, d.sections, i, y, section, s2);
    if Same(p, section, s2) {
      FindRespectsSame(p, d.sections, section, s2);
      assert GetSectionData(p, d.sections, s2) == Some(s);
      assert SectionKeys(d2, s2) == Some(y.data);
      GetAfterSet(p, s.data, key, value, k2);
    } else {
      assert SectionKeys(d2, s2) == SectionKeys(d, s2);
    }
  }

  /** `data.Sections.AddSection(name)`: the section exists afterwards;
      nothing else changes. */
  function AddSection(d: IniData, name: string): (r: IniData)
    ensures r.policy == d.policy && r.global == d.global
    ensures ContainsSection(r.policy, r.sections, name)
    ensures ContainsSection(d.policy, d.sections, name) ==> r.sections == d.sections
    ensures !ContainsSection(d.policy, d.sections, name) ==> r.sections == d.sections + [Entry(name, [], [])]
    ensures forall n :: !Same(d.policy, name, n) ==>
      GetSectionData(d.policy, r.sections, n) == GetSectionData(d.policy, d.sections, n)
    ensures WellFormed(d) ==> WellFormed(r)
  {
    var r := d.(sections := Sections.AddSection(d.policy, d.sections, name));
    assert forall n :: !Same(d.policy, name, n) ==>
      GetSectionData(d.policy, r.sections, n) == GetSectionData(d.policy, d.sections, n) by {
      forall n | !Same(d.policy, name, n)
        ensures GetSectionData(d.policy, r.sections, n) == GetSectionData(d.policy, d.sections, n) {
        GetAfterAddSection(d.policy, d.sections, name, n);
      }
    }
    r
  }

  /** `data.Sections.Add(section)`: a copy of the section is stored with
      its keys re-keyed under the document's policy, so the document stays
      well formed whatever policy the section was built under. */
  function AddSectionData(d: IniData, s: Section): (r: IniData)
    ensures r.policy == d.policy && r.global == d.global
    ensures ContainsSection(d.policy, r.sections, s.name)
    ensures var t := GetSectionData(d.policy, r.sections, s.name);
      t.Some? && t.value.data == Rebuild(d.policy, s.data) && t.value.comments == s.comments
    ensures forall n :: !Same(d.policy, s.name, n) ==>
      GetSectionData(d.policy, r.sections, n) == GetSectionData(d.policy, d.sections, n)
    ensures WellFormed(d) ==> WellFormed(r)
  {
    var r := d.(sections := Sections.AddSectionData(d.policy, d.sections, s));
    GetAfterAddSectionData(d.policy, d.sections, s, s.name);
    assert forall n :: !Same(d.policy, s.name, n) ==>
      GetSectionData(d.policy, r.sections, n) == GetSectionData(d.policy, d.sections, n) by {
      forall n | !Same(d.policy, s.name, n)
        ensures GetSectionData(d.policy, r.sections, n) == GetSectionData(d.policy, d.sections, n) {
        GetAfterAddSectionData(d.policy, d.sections, s, n);
      }
    }
    r
  }

  /** Add then read: once a section is added, writing a key into it succeeds
      and the key is contained and reads the written value. */
  lemma AddSectionThenSet(d: IniData, section: string, key: string, value: string)
    ensures SetValue(AddSection(d, section), section, key, value).Some?
    ensures var d2 := SetValue(AddSection(d, section), section, key, value).value;
      SectionKeys(d2, section).Some? &&
      ContainsKey(d2.policy, SectionKeys(d2, section).value, key) && GetValue(d2, section, key) == Some(value)
  {
    var d1 := AddSection(d, section);
    GetAfterSetValue(d1, section, key, value, section, key);
  }

  /** `target.Merge(source)`: applies `source` on top of `target` under the
      target's policy (a source section is copied in re-keyed under it);
      the source wins every conflicting value, and nothing of the target is
      removed. */
  function Merge(target: IniData, source: IniData): (r: IniData)
    ensures r.policy == target.policy
    ensures |target.global| <= |r.global| && |target.sections| <= |r.sections|
    ensures forall i :: 0 <= i < |target.sections| ==>
      r.sections[i].name == target.sections[i].name && r.sections[i].comments == target.sections[i].comments
    ensures WellFormed(target) ==> WellFormed(r)
  {
    var p := target.policy;
    var r := IniData(p, MergeKeys(p, target.global, source.global), MergeSections(p, target.sections, source.sections));
    if WellFormed(target) then
      MergeSectionsKeysUnique(p, target.sections, source.sections);
      r
    else r
  }

  /** The value a section key reads after a merge. */
  lemma MergeSectionValue(target: IniData, source: IniData, section: string, key: string)
    requires source.policy == target.policy && WellFormed(source)
    ensures GetValue(Merge(target, source), section, key) ==
      if GetValue(source, section, key).Some? then GetValue(source, section, key) else GetValue(target, section, key)
  {
    var p := target.policy;
    MergeSectionsSpec(p, target.sections, source.sections, section);
    var ts, ss := GetSectionData(p, target.sections, section), GetSectionData(p, source.sections, section);
    if ss.Some? {
      var j := IndexOf(p, source.sections, section).value;
      assert Unique(p, source.sections[j].data);
      assert Adopt(p, ss.value) == ss.value;
      if ts.Some? {
        MergeKeysSpec(p, ts.value.data, ss.value.data, key);
      }
    }
  }

  /** Merge semantics on values: every global key and every section key
      reads the source's value when the source holds it, and the target's
      value otherwise; sections and keys only the target holds survive. */
  lemma MergeValues(target: IniData, source: IniData, section: string, key: string)
    requires source.policy == target.policy && WellFormed(source)
    ensures GetGlobal(Merge(target, source), key) ==
      if GetGlobal(source, key).Some? then GetGlobal(source, key) else GetGlobal(target, key)
    ensures GetValue(Merge(target, source), section, key) ==
      if GetValue(source, section, key).Some? then GetValue(source, section, key) else GetValue(target, section, key)
    ensures ContainsSection(target.policy, Merge(target, source).sections, section) <==>
      ContainsSection(target.policy, target.sections, section) || ContainsSection(source.policy, source.sections, section)
  {
    MergeKeysSpec(target.policy, target.global, source.global, key);
    MergeSectionsSpec(target.policy, target.sections, source.sections, section);
    MergeSectionValue(target, source, section, key);
  }

  /** Merge keeps the target's own entries in full where the source has
      nothing to say: a target-only section is unchanged, a section the
      source also holds keeps its comments. */
  lemma MergeKeepsTargetSections(target: IniData, source: IniData, section: string)
    requires source.policy == target.policy && WellFormed(source)
    ensures !ContainsSection(source.policy, source.sections, section) ==>
      GetSectionData(target.policy, Merge(target, source).sections, section) == GetSectionData(target.policy, target.sections, section)
    ensures ContainsSection(target.policy, target.sections, section) ==>
      GetSectionData(target.policy, Merge(target, source).sections, section).value.comments ==
      GetSectionData(target.policy, target.sections, section).value.comments
  {
    MergeSectionsSpec(target.policy, target.sections, source.sections, section);
  }

  /** Every section name of a merge comes from one of the two documents. */
  lemma MergedNamesFromEither(p: CasePolicy, ts: seq<Section>, ss: seq<Section>, x: string)
    requires Unique(p, ss)
    ensures x in NameSet(p, MergeSections(p, ts, ss)) ==> x in NameSet(p, ts) + NameSet(p, ss)
  {
    var rs := MergeSections(p, ts, ss);
    NameSetMembers(p, rs, x);
    if x in NameSet(p, rs) {
      var j :| 0 <= j < |rs| && Normalize(p, rs[j].name) == x;
      var n := rs[j].name;
      MergeSectionsSpec(p, ts, ss, n);
      ContainsIff(p, rs, n);
      if ContainsSection(p, ts, n) {
        var k :| 0 <= k < |ts| && Same(p, ts[k].name, n);
        NameSetMembers(p, ts, x);
      } else {
        var k :| 0 <= k < |ss| && Same(p, ss[k].name, n);
        NameSetMembers(p, ss, x);
      }
    }
  }

  /** Every section name of either document is a section name of the merge. */
  lemma MergedNamesKept(p: CasePolicy, ts: seq<Section>, ss: seq<Section>, x: string)
    requires Unique(p, ss)
    ensures x in NameSet(p, ts) + NameSet(p, ss) ==> x in NameSet(p, MergeSections(p, ts, ss))
  {
    var rs := MergeSections(p, ts, ss);
    NameSetMembers(p, ts, x);
    NameSetMembers(p, ss, x);
    if x in NameSet(p, ts) + NameSet(p, ss) {
      var n: string;
      if x in NameSet(p, ts) {
        var j :| 0 <= j < |ts| && Normalize(p, ts[j].name) == x;
        n := ts[j].name;
        ContainsIff(p, ts, n);
      } else {
        var j :| 0 <= j < |ss| && Normalize(p, ss[j].name) == x;
        n := ss[j].name;
        ContainsIff(p, ss, n);
      }
      MergeSectionsSpec(p, ts, ss, n);
      ContainsIff(p, rs, n);
      var k :| 0 <= k < |rs| && Same(p, rs[k].name, n);
      NameSetMembers(p, rs, x);
    }
  }

  /** After a merge the document holds one section per distinct section
      name of the two documents. */
  lemma MergeSectionCount(target: IniData, source: IniData)
    requires source.policy == target.policy && WellFormed(target) && WellFormed(source)
    ensures |Merge(target, source).sections| ==
      |NameSet(target.policy, target.sections) + NameSet(target.policy, source.sections)|
  {
    var p := target.policy;
    var rs := Merge(target, source).sections;
    UniqueSize(p, rs);
    forall x
      ensures x in NameSet(p, rs) <==> x in NameSet(p, target.sections) + NameSet(p, source.sections)
    {
      MergedNamesFromEither(p, target.sections, source.sections, x);
      MergedNamesKept(p, target.sections, source.sections, x);
    }
    assert NameSet(p, rs) == NameSet(p, target.sections) + NameSet(p, source.sections);
  }

  /** `DeepClone`: a copy built entry by entry, comment list by comment list. */
  function DeepClone(d: IniData): (r: IniData)
    ensures r == d
  {
    var copyKeys := (ks: seq<Property>) => seq(|ks|, i requires 0 <= i < |ks| => Entry(ks[i].name, ks[i].comments[..], ks[i].data));
    var r := IniData(d.policy, copyKeys(d.global),
                     seq(|d.sections|, i requires 0 <= i < |d.sections| =>
                       Entry(d.sections[i].name, d.sections[i].comments[..], copyKeys(d.sections[i].data))));
    assert copyKeys(d.global) == d.global;
    assert forall i :: 0 <= i < |d.sections| ==> copyKeys(d.sections[i].data) == d.sections[i].data;
    r
  }

  /** Clone independence: writes to the clone change what the clone reads
      at the written names only, and what the original reads not at all. */
  lemma DeepCloneIndependent(d: IniData, gkey: string, gvalue: string,
                             section: string, skey: string, svalue: string, s2: string, k2: string)
    requires ContainsSection(d.policy, d.sections, section)
    ensures var c := SetValue(SetGlobal(DeepClone(d), gkey, gvalue), section, skey, svalue).value;
      && GetGlobal(c, k2) == (if Same(d.policy, gkey, k2) then Some(gvalue) else GetGlobal(d, k2))
      && GetValue(c, s2, k2) ==
           (if Same(d.policy, section, s2) && Same(d.policy, skey, k2) then Some(svalue) else GetValue(d, s2, k2))
  {
    var c1 := SetGlobal(DeepClone(d), gkey, gvalue);
    assert c1.policy == d.policy && c1.sections == d.sections;
    assert GetValue(c1, s2, k2) == GetValue(d, s2, k2);
    var c := SetValue(c1, section, skey, svalue).value;
    assert c.global == c1.global;
    GetAfterSet(d.policy, d.global, gkey, gvalue, k2);
    GetAfterSetValue(c1, section, skey, svalue, s2, k2);
  }

  /** `ClearAllComments`: every comment list of the document becomes empty;
      names, values and order stay. */
  function ClearAllComments(d: IniData): (r: IniData)
    ensures r.policy == d.policy
    ensures |r.global| == |d.global| && |r.sections| == |d.sections|
    ensures forall i :: 0 <= i < |d.global| ==> r.global[i].comments == []
    ensures forall i :: 0 <= i < |d.sections| ==> r.sections[i].comments == []
    ensures forall i, j :: 0 <= i < |d.sections| && 0 <= j < |r.sections[i].data| ==> r.sections[i].data[j].comments == []
  {
    var id := (v: string) => v;
    IniData(d.policy, ClearComments(d.global, id),
            ClearComments(d.sections, (ks: seq<Property>) => ClearComments(ks, id)))
  }

  /** Only comments change: after clearing, every global key, section and
      section key reads exactly as before and stays present. */
  lemma ClearAllCommentsKeepsValues(d: IniData, section: string, key: string)
    ensures GetGlobal(ClearAllComments(d), key) == GetGlobal(d, key)
    ensures GetValue(ClearAllComments(d), section, key) == GetValue(d, section, key)
    ensures ContainsSection(d.policy, ClearAllComments(d).sections, section) <==> ContainsSection(d.policy, d.sections, section)
  {
    var p := d.policy;
    var id := (v: string) => v;
    var clearKeys := (ks: seq<Property>) => ClearComments(ks, id);
    FindAfterClearComments(p, d.global, id, key);
    FindAfterClearComments(p, d.sections, clearKeys, section);
    match GetSectionData(p, d.sections, section) {
      case Some(s) => FindAfterClearComments(p, s.data, id, key);
      case None =>
    }
  }

  /** After clearing, whatever a lookup finds (a global key, a section, a
      key of a section) has an empty comment list. */
  lemma ClearAllCommentsEmptiesLookups(d: IniData, section: string, key: string)
    ensures var r := ClearAllComments(d);
      && (GetKeyData(r.policy, r.global, key).Some? ==> GetKeyData(r.policy, r.global, key).value.comments == [])
      && (GetSectionData(r.policy, r.sections, section).Some? ==>
            GetSectionData(r.policy, r.sections, section).value.comments == [])
      && (SectionKeys(r, section).Some? && GetKeyData(r.policy, SectionKeys(r, section).value, key).Some? ==>
            GetKeyData(r.policy, SectionKeys(r, section).value, key).value.comments == [])
  {
    var p := d.policy;
    var id := (v: string) => v;
    var clearKeys := (ks: seq<Property>) => ClearComments(ks, id);
    FindAfterClearComments(p, d.global, id, key);
    FindAfterClearComments(p, d.sections, clearKeys, section);
    match GetSectionData(p, d.sections, section) {
      case Some(s) => FindAfterClearComments(p, s.data, id, key);
      case None =>
    }
  }

  /** Clearing keeps the document invariant. */
  lemma ClearAllCommentsWellFormed(d: IniData)
    ensures WellFormed(d) ==> WellFormed(ClearAllComments(d))
  {
    var p := d.policy;
    var id := (v: string) => v;
    var clearKeys := (ks: seq<Property>) => ClearComments(ks, id);
    var r := ClearAllComments(d);
    FindAfterClearComments(p, d.global, id, "");
    FindAfterClearComments(p, d.sections, clearKeys, "");
    forall i | 0 <= i < |d.sections|
      ensures Unique(p, d.sections[i].data) ==> Unique(p, r.sections[i].data)
    {
      FindAfterClearComments(p, d.sections[i].data, id, "");
    }
  }

  /** Clearing twice is clearing once. */
  lemma ClearAllCommentsIdempotent(d: IniData)
    ensures ClearAllComments(ClearAllComments(d)) == ClearAllComments(d)
  {
    var r := ClearAllComments(d);
    var rr := ClearAllComments(r);
    assert rr.global == r.global;
    forall i | 0 <= i < |r.sections|
      ensures rr.sections[i] == r.sections[i]
    {
      assert rr.sections[i].data == r.sections[i].data;
    }
  }
}

=== FILE: fixture.dfy ===
/** How each line of the unit-test fixtures lexes: general lemmas for the
    shapes of line the fixtures use (comment, header, key line), and one
    lemma per distinct fixture line instantiating them. */
module Fixture {
  import opened Text
  import opened Parser

  /** A key line: optional indentation, `key`, the delimiter, `value`,
      optional trailing blanks; the first character of the key is neither
      a comment nor a section marker, and the key holds no delimiter. */
  lemma PropertyLine(scheme: Scheme, raw: string, pre: string, key: string, value: string, post: string, k: string, v: string)
    requires AllWhitespace(pre) && AllWhitespace(post)
    requires raw == pre + (key + scheme.propertyDelimiter + value) + post
    requires Trimmed(key + scheme.propertyDelimiter + value)
    requires |key| > 0 && |scheme.commentString| > 0 && |scheme.sectionStart| > 0
    requires key[0] != scheme.commentString[0] && key[0] != scheme.sectionStart[0]
    requires |scheme.propertyDelimiter| > 0 && scheme.propertyDelimiter[0] !in key
    requires Trim(key) == k && Trim(value) == v
    ensures Classify(scheme, raw) == KeyValue(k, v)
  {
    var t := key + scheme.propertyDelimiter + value;
    TrimFrame(pre, t, post);
    assert t[0] == key[0];
    FirstCharDiffers(t, scheme.commentString);
    FirstCharDiffers(t, scheme.sectionStart);
    NoEarlierOccurrence(key, scheme.propertyDelimiter, value);
    LexKeyValue(scheme, key, value);
  }

  /** A comment line: the marker followed by the text. */
  lemma CommentLine(scheme: Scheme, raw: string, text: string, c: string)
    requires raw == scheme.commentString + text && Trimmed(raw)
    requires |scheme.commentString| > 0 && Trim(text) == c
    ensures Classify(scheme, raw) == Comment(c)
  {
    TrimFrame([], raw, []);
    assert [] + raw + [] == raw;
    LexComment(scheme, text);
  }

  /** A header line: start marker, name, end marker. */
  lemma HeaderLine(scheme: Scheme, raw: string, name: string, n: string)
    requires raw == scheme.sectionStart + name + scheme.sectionEnd && Trimmed(raw)
    requires |scheme.sectionStart| > 0 && |scheme.commentString| > 0
    requires scheme.sectionStart[0] != scheme.commentString[0]
    requires |scheme.sectionEnd| > 0 && scheme.sectionEnd[0] !in name
    requires Trim(name) == n
    ensures Classify(scheme, raw) == Header(n)
  {
    TrimFrame([], raw, []);
    assert [] + raw + [] == raw;
    assert raw[0] == scheme.sectionStart[0];
    FirstCharDiffers(raw, scheme.commentString);
    NoEarlierOccurrence(name, scheme.sectionEnd, []);
    LexHeader(scheme, name);
  }

  /** An already trimmed string is its own trim. */
  lemma TrimmedIsFixed(t: string)
    requires Trimmed(t)
    ensures Trim(t) == t
  {
    TrimFrame([], t, []);
    assert [] + t + [] == t;
  }

  /** Trailing blanks are trimmed away. */
  lemma TrimTail(t: string, post: string)
    requires Trimmed(t) && AllWhitespace(post)
    ensures Trim(t + post) == t
  {
    TrimFrame([], t, post);
    assert [] + t + post == t + post;
  }

  /** Leading blanks are trimmed away. */
  lemma TrimHead(pre: string, t: string)
    requires Trimmed(t) && AllWhitespace(pre)
    ensures Trim(pre + t) == t
  {
    TrimFrame(pre, t, []);
    assert pre + t + [] == pre + t;
  }

  /** A name or value without blanks, delimiters or brackets. */
  predicate Word(w: string) {
    |w| > 0 && forall i :: 0 <= i < |w| ==> !IsWhitespace(w[i]) && w[i] != '=' && w[i] != ']'
  }

  /** A key and a value, each trimmed, around `=` with the same padding on
      both sides: the padded line is trimmed, starts with the key, and holds
      no `=` before the delimiter. */
  lemma PaddedShape(key: string, sp: string, value: string)
    requires AllWhitespace(sp) && |key| > 0 && |value| > 0 && Trimmed(key) && Trimmed(value) && '=' !in key
    ensures var t := (key + sp) + "=" + (sp + value);
      Trimmed(t) && t[0] == key[0] && '=' !in key + sp
  {
    var k := key + sp;
    var t := k + "=" + (sp + value);
    assert t[0] == key[0] && t[|t| - 1] == value[|value| - 1];
    assert '=' !in k by {
      forall i | 0 <= i < |k| ensures k[i] != '=' {
        if i < |key| { assert k[i] == key[i]; } else { assert k[i] == sp[i - |key|]; }
      }
    }
  }

  /** `key = value` under the default scheme, with any indentation, any
      blank padding around `=`, and any trailing blanks. */
  lemma PaddedKeyLine(raw: string, indent: string, key: string, sp: string, value: string, post: string)
    requires AllWhitespace(indent) && AllWhitespace(sp) && AllWhitespace(post)
    requires |key| > 0 && |value| > 0 && Trimmed(key) && Trimmed(value)
    requires key[0] != ';' && key[0] != '[' && '=' !in key
    requires raw == indent + ((key + sp) + "=" + (sp + value)) + post
    ensures Classify(DefaultScheme, raw) == KeyValue(key, value)
  {
    TrimTail(key, sp);
    TrimHead(sp, value);
    PaddedShape(key, sp, value);
    PropertyLine(DefaultScheme, raw, indent, key + sp, sp + value, post, key, value);
  }

  /** `key = value` under the default scheme, possibly indented. */
  lemma KeyLine(raw: string, indent: string, key: string, value: string)
    requires AllWhitespace(indent) && Word(key) && Word(value) && key[0] != ';' && key[0] != '['
    requires raw == indent + key + " = " + value
    ensures Classify(DefaultScheme, raw) == KeyValue(key, value)
  {
    assert raw == indent + ((key + " ") + "=" + (" " + value)) + [];
    assert Trimmed(key) && Trimmed(value) && '=' !in key;
    PaddedKeyLine(raw, indent, key, " ", value, []);
  }

  /** `;text` under the default scheme. */
  lemma CommentTextLine(raw: string, text: string)
    requires raw == ";" + text && |text| > 0 && Trimmed(text)
    ensures Classify(DefaultScheme, raw) == Comment(text)
  {
    assert raw[0] == ';' && raw[|raw| - 1] == text[|text| - 1];
    TrimmedIsFixed(text);
    CommentLine(DefaultScheme, raw, text, text);
  }

  /** `[name]` under any scheme with the default section markers. */
  lemma SectionLine(scheme: Scheme, raw: string, name: string)
    requires scheme.commentString == ";" && scheme.sectionStart == "[" && scheme.sectionEnd == "]"
    requires raw == "[" + name + "]" && Word(name)
    ensures Classify(scheme, raw) == Header(name)
  {
    assert raw[0] == '[' && raw[|raw| - 1] == ']';
    assert ']' !in name;
    TrimmedIsFixed(name);
    HeaderLine(scheme, raw, name, name);
  }

  // The lines of the fixtures, one lemma each.

  lemma LineComment1(raw: string) requires raw == ";comment1" ensures Classify(DefaultScheme, raw) == Comment("comment1") { CommentTextLine(raw, "comment1"); }
  lemma LineComment2(raw: string) requires raw == ";comment2" ensures Classify(DefaultScheme, raw) == Comment("comment2") { CommentTextLine(raw, "comment2"); }
  lemma LineAValue(raw: string) requires raw == ";a value" ensures Classify(DefaultScheme, raw) == Comment("a value") { CommentTextLine(raw, "a value"); }
  lemma LineKey1(raw: string) requires raw == "key1 = 2" ensures Classify(DefaultScheme, raw) == KeyValue("key1", "2") { KeyLine(raw, [], "key1", "2"); }
  lemma LineValue1(raw: string) requires raw == "value1 = 10.6" ensures Classify(DefaultScheme, raw) == KeyValue("value1", "10.6") { KeyLine(raw, [], "value1", "10.6"); }
  lemma LineSection1(raw: string) requires raw == "[section1]" ensures Classify(DefaultScheme, raw) == Header("section1") { SectionLine(DefaultScheme, raw, "section1"); }
  lemma LineTestSection(raw: string) requires raw == "[TestSection]" ensures Classify(DefaultScheme, raw) == Header("TestSection") { SectionLine(DefaultScheme, raw, "TestSection"); }
  lemma LineIndentedKey1(raw: string) requires raw == "            KEY1 = value1" ensures Classify(DefaultScheme, raw) == KeyValue("KEY1", "value1") { KeyLine(raw, "            ", "KEY1", "value1"); }
  lemma LineIndentedKey2(raw: string) requires raw == "            KEY2 = value2" ensures Classify(DefaultScheme, raw) == KeyValue("KEY2", "value2") { KeyLine(raw, "            ", "KEY2", "value2"); }
  lemma LineGlobal(raw: string) requires raw == "global = 1" ensures Classify(DefaultScheme, raw) == KeyValue("global", "1") { KeyLine(raw, [], "global", "1"); }
  lemma LineSection(raw: string) requires raw == "[section]" ensures Classify(DefaultScheme, raw) == Header("section") { SectionLine(DefaultScheme, raw, "section"); }
  lemma LineKey(raw: string) requires raw == "key = 1" ensures Classify(DefaultScheme, raw) == KeyValue("key", "1") { KeyLine(raw, [], "key", "1"); }
  lemma LineG1(raw: string) requires raw == "g = 1" ensures Classify(DefaultScheme, raw) == KeyValue("g", "1") { KeyLine(raw, [], "g", "1"); }
  lemma LineS0(raw: string) requires raw == "[s0]" ensures Classify(DefaultScheme, raw) == Header("s0") { SectionLine(DefaultScheme, raw, "s0"); }
  lemma LineA2(raw: string) requires raw == "a = 2" ensures Classify(DefaultScheme, raw) == KeyValue("a", "2") { KeyLine(raw, [], "a", "2"); }
  lemma LineS1(raw: string) requires raw == "[s1]" ensures Classify(DefaultScheme, raw) == Header("s1") { SectionLine(DefaultScheme, raw, "s1"); }
  lemma LineA3(raw: string) requires raw == "a = 3" ensures Classify(DefaultScheme, raw) == KeyValue("a", "3") { KeyLine(raw, [], "a", "3"); }
  lemma LineB4(raw: string) requires raw == "b = 4" ensures Classify(DefaultScheme, raw) == KeyValue("b", "4") { KeyLine(raw, [], "b", "4"); }
  lemma LineG11(raw: string) requires raw == "g = 11" ensures Classify(DefaultScheme, raw) == KeyValue("g", "11") { KeyLine(raw, [], "g", "11"); }
  lemma LineJA(raw: string) requires raw == "j = a" ensures Classify(DefaultScheme, raw) == KeyValue("j", "a") { KeyLine(raw, [], "j", "a"); }
  lemma LineA22(raw: string) requires raw == "a = 22" ensures Classify(DefaultScheme, raw) == KeyValue("a", "22") { KeyLine(raw, [], "a", "22"); }
  lemma LineB44(raw: string) requires raw == "b = 44" ensures Classify(DefaultScheme, raw) == KeyValue("b", "44") { KeyLine(raw, [], "b", "44"); }
  lemma LineS2(raw: string) requires raw == "[s2]" ensures Classify(DefaultScheme, raw) == Header("s2") { SectionLine(DefaultScheme, raw, "s2"); }
  lemma LineC55(raw: string) requires raw == "c = 55" ensures Classify(DefaultScheme, raw) == KeyValue("c", "55") { KeyLine(raw, [], "c", "55"); }

  /** The scheme of the separator test: the key/value delimiter is ` =`. */
  const SpacedScheme := Scheme(";", "[", "]", " =")

  lemma LineSpacedSection(raw: string) requires raw == "[section]" ensures Classify(SpacedScheme, raw) == Header("section") { SectionLine(SpacedScheme, raw, "section"); }

  /** A line `key =` followed by a padded value, under the spaced scheme:
      the key may itself contain `=`, as long as it holds no blank. */
  lemma SpacedKeyLine(raw: string, key: string, sp: string, value: string)
    requires |key| > 0 && Trimmed(key) && ' ' !in key && key[0] != ';' && key[0] != '['
    requires |value| > 0 && Trimmed(value) && AllWhitespace(sp)
    requires raw == [] + (key + SpacedScheme.propertyDelimiter + (sp + value)) + []
    ensures Classify(SpacedScheme, raw) == KeyValue(key, value)
  {
    var t := key + SpacedScheme.propertyDelimiter + (sp + value);
    assert Trimmed(t) by {
      assert t[0] == key[0] && t[|t| - 1] == value[|value| - 1];
    }
    TrimmedIsFixed(key);
    TrimHead(sp, value);
    PropertyLine(SpacedScheme, raw, [], key, sp + value, [], key, value);
  }

  /** `bla= = 1` splits at the first ` =`, so the key keeps its `=`. */
  lemma LineBla(raw: string)
    requires raw == "bla= = 1"
    ensures Classify(SpacedScheme, raw) == KeyValue("bla=", "1")
  {
    assert raw == [] + ("bla=" + SpacedScheme.propertyDelimiter + (" " + "1")) + [];
    SpacedKeyLine(raw, "bla=", " ", "1");
  }
}

=== FILE: keys.dfy ===
/** Key collections: the ordered key-value entries of the global scope or
    of one section, looked up by name under the document's case policy. */
module Keys {
  import opened Wrappers
  import opened Names
  import opened Collection

  /** A key-value entry: its name, leading comment lines, and value text. */
  type Property = Entry<string>

  /** `ContainsKey`: some entry is named `name`. */
  predicate ContainsKey(p: CasePolicy, ks: seq<Property>, name: string) {
    Contains(p, ks, name)
  }

  /** `GetKeyData`: the whole entry named `name`, comments included. */
  function GetKeyData(p: CasePolicy, ks: seq<Property>, name: string): (r: Option<Property>)
    ensures r.Some? <==> ContainsKey(p, ks, name)
    ensures r.Some? ==> r.value in ks && Same(p, r.value.name, name)
  {
    Find(p, ks, name)
  }

  /** Indexed read: the value stored under `name`; absent names give None
      and are not created. */
  function Get(p: CasePolicy, ks: seq<Property>, name: string): (r: Option<string>)
    ensures r.Some? <==> ContainsKey(p, ks, name)
    ensures r.Some? ==> exists i :: 0 <= i < |ks| && Same(p, ks[i].name, name) && ks[i].data == r.value
  {
    match Find(p, ks, name)
    case Some(e) =>
      assert exists i :: 0 <= i < |ks| && ks[i] == e;
      Some(e.data)
    case None => None
  }

  /** Indexed write: overwrites the value of the entry named `name` in place
      (its stored name and comments stay), or appends a new entry. */
  function Set(p: CasePolicy, ks: seq<Property>, name: string, value: string): (r: seq<Property>)
    ensures Get(p, r, name) == Some(value)
    ensures Unique(p, ks) ==> Unique(p, r)
  {
    FindAfterUpsert(p, ks, name, value, name);
    Upsert(p, ks, name, value)
  }

  /** `AddKey(name, value)`: the same create-or-overwrite as an indexed
      write, so that the last of several case variants wins. */
  function AddKey(p: CasePolicy, ks: seq<Property>, name: string, value: string): (r: seq<Property>)
    ensures Get(p, r, name) == Some(value)
    ensures Unique(p, ks) ==> Unique(p, r)
  {
    Set(p, ks, name, value)
  }

  /** Add then read: after a write, the written name (in any spelling the
      policy equates with it) reads the new value and is contained; every
      other name reads what it read before. */
  lemma GetAfterSet(p: CasePolicy, ks: seq<Property>, name: string, value: string, other: string)
    ensures Get(p, Set(p, ks, name, value), other) ==
      if Same(p, name, other) then Some(value) else Get(p, ks, other)
    ensures ContainsKey(p, Set(p, ks, name, value), other) <==>
      Same(p, name, other) || ContainsKey(p, ks, other)
  {
    FindAfterUpsert(p, ks, name, value, other);
  }

  /** A write keeps the comments and the stored name of the entry it
      overwrites, and gives a new entry no comments. */
  lemma SetKeepsEntry(p: CasePolicy, ks: seq<Property>, name: string, value: string)
    ensures GetKeyData(p, Set(p, ks, name, value), name) ==
      match GetKeyData(p, ks, name)
      case Some(e) => Some(Entry(e.name, e.comments, value))
      case None => Some(Entry(name, [], value))
  {
    FindAfterUpsert(p, ks, name, value, name);
  }

  /** A write adds an entry exactly when the name is new, and never
      introduces a duplicate. */
  lemma SetSize(p: CasePolicy, ks: seq<Property>, name: string, value: string)
    requires Unique(p, ks)
    ensures Unique(p, Set(p, ks, name, value))
    ensures |Set(p, ks, name, value)| == if ContainsKey(p, ks, name) then |ks| else |ks| + 1
  {
  }

  /** The collection produced by a sequence of `AddKey` calls, in order. */
  function AddKeys(p: CasePolicy, ks: seq<Property>, writes: seq<(string, string)>): seq<Property>
    decreases |writes|
  {
    if |writes| == 0 then ks
    else
      var last := writes[|writes| - 1];
      AddKey(p, AddKeys(p, ks, writes[..|writes| - 1]), last.0, last.1)
  }

  /** The value of the last write to `name` (under `p`), if any. */
  function LastWrite(p: CasePolicy, writes: seq<(string, string)>, name: string): Option<string>
    decreases |writes|
  {
    if |writes| == 0 then None
    else if Same(p, writes[|writes| - 1].0, name) then Some(writes[|writes| - 1].1)
    else LastWrite(p, writes[..|writes| - 1], name)
  }

  /** `LastWrite` reports a value exactly when some write names `name`. */
  lemma {:induction false} LastWriteSome(p: CasePolicy, writes: seq<(string, string)>, name: string)
    ensures LastWrite(p, writes, name).Some? <==> exists i :: 0 <= i < |writes| && Same(p, writes[i].0, name)
    decreases |writes|
  {
    if |writes| > 0 && !Same(p, writes[|writes| - 1].0, name) {
      var init := writes[..|writes| - 1];
      LastWriteSome(p, init, name);
      assert forall i :: 0 <= i < |init| ==> init[i] == writes[i];
    }
  }

  /** Appending a write to another name keeps what `LastWrite` reports,
      and keeps its position the last one naming `name`. */
  lemma LastWriteExtend(p: CasePolicy, init: seq<(string, string)>, w: (string, string), name: string, i: nat)
    requires i < |init| && !Same(p, w.0, name)
    requires LastWrite(p, init, name).Some? && Same(p, init[i].0, name) && init[i].1 == LastWrite(p, init, name).value
    requires forall j :: i < j < |init| ==> !Same(p, init[j].0, name)
    ensures var ws := init + [w];
      && LastWrite(p, ws, name) == LastWrite(p, init, name)
      && ws[i] == init[i]
      && forall j :: i < j < |ws| ==> !Same(p, ws[j].0, name)
  {
    var ws := init + [w];
    assert ws[..|ws| - 1] == init;
    forall j | i < j < |ws| ensures !Same(p, ws[j].0, name) {
      if j < |init| { assert ws[j] == init[j]; }
    }
  }

  /** The position of the write `LastWrite` reports: it names `name` and
      no later write does. */
  lemma {:induction false} LastWriteAt(p: CasePolicy, writes: seq<(string, string)>, name: string) returns (i: nat)
    requires LastWrite(p, writes, name).Some?
    ensures i < |writes| && Same(p, writes[i].0, name) && writes[i].1 == LastWrite(p, writes, name).value
    ensures forall j :: i < j < |writes| ==> !Same(p, writes[j].0, name)
    decreases |writes|
  {
    var init := writes[..|writes| - 1];
    var w := writes[|writes| - 1];
    if Same(p, w.0, name) {
      i := |writes| - 1;
    } else {
      assert writes == init + [w];
      assert LastWrite(p, writes, name) == LastWrite(p, init, name);
      i := LastWriteAt(p, init, name);
      LastWriteExtend(p, init, w, name, i);
    }
  }

  /** `LastWrite` reports the value of the last write to `name`: no write
      after it names `name`. */
  lemma LastWriteIsLast(p: CasePolicy, writes: seq<(string, string)>, name: string)
    ensures LastWrite(p, writes, name).Some? ==>
      exists i :: (0 <= i < |writes| && Same(p, writes[i].0, name) && writes[i].1 == LastWrite(p, writes, name).value &&
                   forall j :: i < j < |writes| ==> !Same(p, writes[j].0, name))
  {
    if LastWrite(p, writes, name).Some? {
      var i := LastWriteAt(p, writes, name);
    }
  }

  /** Last write wins: after any sequence of `AddKey` calls every name reads
      the value most recently written under a name the policy equates with
      it, and names never written read what they read before. */
  lemma {:induction false} GetAfterAddKeys(p: CasePolicy, ks: seq<Property>, writes: seq<(string, string)>, name: string)
    ensures Get(p, AddKeys(p, ks, writes), name) ==
      match LastWrite(p, writes, name)
      case Some(v) => Some(v)
      case None => Get(p, ks, name)
    decreases |writes|
  {
    if |writes| > 0 {
      var init := writes[..|writes| - 1];
      var last := writes[|writes| - 1];
      GetAfterAddKeys(p, ks, init, name);
      GetAfterSet(p, AddKeys(p, ks, init), last.0, last.1, name);
    }
  }

  /** The normal forms of the names written by `writes`. */
  function WrittenNames(p: CasePolicy, writes: seq<(string, string)>): (r: set<string>)
    ensures forall i :: 0 <= i < |writes| ==> Normalize(p, writes[i].0) in r
    decreases |writes|
  {
    if |writes| == 0 then {}
    else WrittenNames(p, writes[..|writes| - 1]) + {Normalize(p, writes[|writes| - 1].0)}
  }

  /** A fresh collection filled by `AddKey` calls holds one entry per
      distinct written name under the policy, and no duplicates. */
  lemma {:induction false} AddKeysSize(p: CasePolicy, writes: seq<(string, string)>)
    ensures Unique(p, AddKeys(p, [], writes))
    ensures NameSet(p, AddKeys(p, [], writes)) == WrittenNames(p, writes)
    ensures |AddKeys(p, [], writes)| == |WrittenNames(p, writes)|
    decreases |writes|
  {
    if |writes| > 0 {
      var init := writes[..|writes| - 1];
      var last := writes[|writes| - 1];
      AddKeysSize(p, init);
      NameSetAfterUpsert(p, AddKeys(p, [], init), last.0, last.1);
    }
    UniqueSize(p, AddKeys(p, [], writes));
  }

  /** Merging key collections: the source's value wins on every name both
      hold; entries only in the source are appended with their comments. */
  function MergeKeys(p: CasePolicy, target: seq<Property>, source: seq<Property>): (r: seq<Property>)
    ensures |target| <= |r|
    ensures forall i :: 0 <= i < |target| ==> r[i].name == target[i].name && r[i].comments == target[i].comments
    ensures Unique(p, target) ==> Unique(p, r)
  {
    Merge(p, target, source, (tv: string, sv: string) => sv)
  }

  /** Merge semantics for keys, name by name: a name the source holds reads
      the source's value; a name only the target holds keeps its whole
      entry; a target entry keeps its comments; a source-only entry arrives
      with its comments; nothing disappears. */
  lemma MergeKeysSpec(p: CasePolicy, target: seq<Property>, source: seq<Property>, n: string)
    requires Unique(p, source)
    ensures Get(p, MergeKeys(p, target, source), n) ==
      if ContainsKey(p, source, n) then Get(p, source, n) else Get(p, target, n)
    ensures ContainsKey(p, MergeKeys(p, target, source), n) <==> ContainsKey(p, target, n) || ContainsKey(p, source, n)
    ensures !ContainsKey(p, source, n) ==> GetKeyData(p, MergeKeys(p, target, source), n) == GetKeyData(p, target, n)
    ensures !ContainsKey(p, target, n) ==> GetKeyData(p, MergeKeys(p, target, source), n) == GetKeyData(p, source, n)
    ensures ContainsKey(p, target, n) ==>
      GetKeyData(p, MergeKeys(p, target, source), n).value.comments == GetKeyData(p, target, n).value.comments
  {
    FindAfterMerge(p, target, source, (tv: string, sv: string) => sv, n);
  }
}

=== FILE: names.dfy ===
/** The name-comparison policy shared by key and section collections: a
    document compares names either exactly or after ASCII case folding. */
module Names {
  import Text

  datatype CasePolicy = CaseSensitive | CaseInsensitive

  /** The form under which two names are compared. */
  function Normalize(p: CasePolicy, name: string): (r: string)
    ensures p == CaseSensitive ==> r == name
    ensures |r| == |name|
  {
    match p
    case CaseSensitive => name
    case CaseInsensitive => Text.Lower(name)
  }

  /** `a` and `b` denote the same entry under policy `p`. */
  predicate Same(p: CasePolicy, a: string, b: string) {
    Normalize(p, a) == Normalize(p, b)
  }

  /** Under the case-insensitive policy, names that differ only in ASCII
      letter case are the same name; under the case-sensitive policy only
      equal names are. */
  lemma SameCharacterization(p: CasePolicy, a: string, b: string)
    ensures p == CaseSensitive ==> (Same(p, a, b) <==> a == b)
    ensures p == CaseInsensitive ==>
      (Same(p, a, b) <==> |a| == |b| && forall i :: 0 <= i < |a| ==> Text.LowerChar(a[i]) == Text.LowerChar(b[i]))
  {
    if p == CaseInsensitive && |a| == |b| && forall i :: 0 <= i < |a| ==> Text.LowerChar(a[i]) == Text.LowerChar(b[i]) {
      assert Text.Lower(a) == Text.Lower(b);
    }
  }

  /** A name is the same as its own normal form, so a lookup by the folded
      name finds what a lookup by the original finds. */
  lemma SameAsNormalized(p: CasePolicy, name: string)
    ensures Same(p, name, Normalize(p, name))
  {
    Text.LowerIdempotent(name);
  }
}

=== FILE: parser.dfy ===
/** The line-oriented parser: classifies each line, keeps a buffer of
    pending comment lines, and builds the document section by section. */
module Parser {
  import opened Wrappers
  import opened Text
  import opened Names
  import opened Collection
  import opened Keys
  import opened Sections
  import opened Document

  /** Lexical rules: comment marker, section delimiters, key/value delimiter. */
  datatype Scheme = Scheme(commentString: string, sectionStart: string, sectionEnd: string, propertyDelimiter: string)

  /** `;` comments, `[name]` headers, `=` between key and value. */
  const DefaultScheme := Scheme(";", "[", "]", "=")

  /** Parser options: the case policy of the produced document and whether a
      repeated key or section overwrites (allowed) or is an error. */
  datatype Configuration = Configuration(caseInsensitive: bool, allowDuplicateKeys: bool, allowDuplicateSections: bool)

  const DefaultConfiguration := Configuration(false, false, false)

  function PolicyOf(cfg: Configuration): CasePolicy {
    if cfg.caseInsensitive then CaseInsensitive else CaseSensitive
  }

  datatype ErrorKind = MalformedSectionHeader | MissingDelimiter | DuplicateSection | DuplicateKey

  /** A parse failure: its kind, the 1-based number of the offending line and its raw text. */
  datatype ParseError = ParseError(kind: ErrorKind, lineNumber: nat, line: string)

  /** What one line is, once trimmed. */
  datatype Line =
    | Blank
    | Comment(text: string)
    | Header(name: string)
    | BadHeader
    | KeyValue(key: string, value: string)
    | NoDelimiter

  /** Lexes one trimmed line. An empty line is Blank; one starting with the
      comment marker is a comment whose text is the trimmed rest; one
      starting with the section start needs a later section end, the trimmed
      text between them being the name (text after the end is ignored); any
      other line is split at the first occurrence of the key/value delimiter
      into a trimmed key and a trimmed value. */
  function Lex(scheme: Scheme, t: string): (r: Line)
    ensures r.Blank? <==> |t| == 0
    ensures r.Comment? ==> Trimmed(r.text) && StartsWith(t, scheme.commentString)
    ensures r.Header? ==> Trimmed(r.name) && StartsWith(t, scheme.sectionStart)
    ensures r.BadHeader? ==> StartsWith(t, scheme.sectionStart)
    ensures r.KeyValue? ==> Trimmed(r.key) && Trimmed(r.value)
    ensures (r.KeyValue? || r.NoDelimiter?) ==>
      !StartsWith(t, scheme.commentString) && !StartsWith(t, scheme.sectionStart)
    ensures r.NoDelimiter? ==> forall j :: 0 <= j ==> !OccursAt(t, scheme.propertyDelimiter, j)
  {
    if |t| == 0 then Blank
    else if StartsWith(t, scheme.commentString) then Comment(Trim(t[|scheme.commentString|..]))
    else if StartsWith(t, scheme.sectionStart) then
      match SplitAtFirst(t[|scheme.sectionStart|..], scheme.sectionEnd)
      case Some((inner, _)) => Header(Trim(inner))
      case None => BadHeader
    else
      match SplitAtFirst(t, scheme.propertyDelimiter)
      case Some((k, v)) => KeyValue(Trim(k), Trim(v))
      case None => NoDelimiter
  }

  /** Classifies one raw line by its trimmed form. */
  function Classify(scheme: Scheme, raw: string): Line {
    Lex(scheme, Trim(raw))
  }

  /** Only lines of whitespace are blank. */
  lemma ClassifyBlank(scheme: Scheme, raw: string)
    ensures Classify(scheme, raw).Blank? <==> AllWhitespace(raw)
  {
    TrimEmpty(raw);
  }

  /** Indentation and trailing blanks do not change what a line is. */
  lemma ClassifyFramed(scheme: Scheme, pre: string, t: string, post: string)
    requires AllWhitespace(pre) && AllWhitespace(post) && Trimmed(t)
    ensures Classify(scheme, pre + t + post) == Lex(scheme, t)
  {
    TrimFrame(pre, t, post);
  }

  /** Split at the first delimiter: a line `before + delim + after` in which
      the delimiter does not start earlier is the key `before` and the value
      `after`, both trimmed, even when `after` contains the delimiter again. */
  lemma LexKeyValue(scheme: Scheme, before: string, after: string)
    requires var t := before + scheme.propertyDelimiter + after;
      && |t| > 0 && !StartsWith(t, scheme.commentString) && !StartsWith(t, scheme.sectionStart)
      && forall j :: 0 <= j < |before| ==> !OccursAt(t, scheme.propertyDelimiter, j)
    ensures Lex(scheme, before + scheme.propertyDelimiter + after) == KeyValue(Trim(before), Trim(after))
  {
    SplitAtFirstUnique(before, scheme.propertyDelimiter, after);
  }

  /** A comment line is its marker followed by the comment text. */
  lemma LexComment(scheme: Scheme, text: string)
    requires |scheme.commentString| > 0
    ensures Lex(scheme, scheme.commentString + text) == Comment(Trim(text))
  {
    var t := scheme.commentString + text;
    StartsWithConcat(scheme.commentString, text);
    assert t[|scheme.commentString|..] == text;
  }

  /** A header line is start marker, name, end marker, with no end marker
      starting inside the name. */
  lemma LexHeader(scheme: Scheme, name: string)
    requires var t := scheme.sectionStart + name + scheme.sectionEnd;
      |t| > 0 && !StartsWith(t, scheme.commentString)
    requires forall j :: 0 <= j < |name| ==> !OccursAt(name + scheme.sectionEnd + [], scheme.sectionEnd, j)
    ensures Lex(scheme, scheme.sectionStart + name + scheme.sectionEnd) == Header(Trim(name))
  {
    var rest := name + scheme.sectionEnd + [];
    var t := scheme.sectionStart + rest;
    assert t == scheme.sectionStart + name + scheme.sectionEnd;
    StartsWithConcat(scheme.sectionStart, rest);
    assert t[|scheme.sectionStart|..] == rest;
    SplitAtFirstUnique(name, scheme.sectionEnd, []);
  }

  /** Parser state: the document so far, the index of the current section
      (None while still in the global scope), and the comment lines read
      since the last declared element. */
  datatype State = State(doc: IniData, current: Option<nat>, pending: seq<string>)

  predicate Valid(st: State) {
    st.current.Some? ==> st.current.value < |st.doc.sections|
  }

  /** The key collection new keys go into. */
  function CurrentKeys(st: State): seq<Property>
    requires Valid(st)
  {
    match st.current
    case Some(i) => st.doc.sections[i].data
    case None => st.doc.global
  }

  /** Replaces the key collection new keys go into. */
  function WithCurrentKeys(st: State, ks: seq<Property>): (r: State)
    requires Valid(st)
    ensures Valid(r) && r.current == st.current && r.pending == st.pending
    ensures CurrentKeys(r) == ks && r.doc.policy == st.doc.policy
    ensures |r.doc.sections| == |st.doc.sections|
    ensures forall i :: 0 <= i < |st.doc.sections| ==> r.doc.sections[i].name == st.doc.sections[i].name
  {
    match st.current
    case Some(i) =>
      var s := st.doc.sections[i];
      st.(doc := st.doc.(sections := st.doc.sections[i := s.(data := ks)]))
    case None => st.(doc := st.doc.(global := ks))
  }

  /** Processes one classified line (number `n`, raw text `raw`). */
  function Step(cfg: Configuration, st: State, n: nat, raw: string, line: Line): (r: Result<State, ParseError>)
    requires Valid(st)
    ensures r.Success? ==> Valid(r.value) && r.value.doc.policy == st.doc.policy
    ensures r.Success? && WellFormed(st.doc) ==> WellFormed(r.value.doc)
    ensures r.Failure? ==> r.error.lineNumber == n && r.error.line == raw
    // blank lines change nothing, not even the pending comments
    ensures line.Blank? ==> r == Success(st)
    // comment lines only extend the pending buffer
    ensures line.Comment? ==> r == Success(st.(pending := st.pending + [line.text]))
    ensures line.BadHeader? ==> r.Failure? && r.error.kind == MalformedSectionHeader
    ensures line.NoDelimiter? ==> r.Failure? && r.error.kind == MissingDelimiter
    ensures line.Header? ==> r == OpenSection(cfg, st, n, raw, line.name)
    ensures line.KeyValue? ==> r == AddProperty(cfg, st, n, raw, line.key, line.value)
  {
    match line
    case Blank => Success(st)
    case Comment(c) => Success(st.(pending := st.pending + [c]))
    case BadHeader => Failure(ParseError(MalformedSectionHeader, n, raw))
    case NoDelimiter => Failure(ParseError(MissingDelimiter, n, raw))
    case Header(name) => OpenSection(cfg, st, n, raw, name)
    case KeyValue(key, value) => AddProperty(cfg, st, n, raw, key, value)
  }

  /** A section header: opens the section, which receives the pending
      comments. A repeated name reopens the existing section (appending the
      pending comments to its own) when duplicates are allowed, and is an
      error otherwise. */
  function OpenSection(cfg: Configuration, st: State, n: nat, raw: string, name: string): (r: Result<State, ParseError>)
    requires Valid(st)
    ensures r.Success? ==> Valid(r.value) && r.value.doc.policy == st.doc.policy
    ensures r.Success? && WellFormed(st.doc) ==> WellFormed(r.value.doc)
    ensures r.Failure? <==> ContainsSection(st.doc.policy, st.doc.sections, name) && !cfg.allowDuplicateSections
    ensures r.Failure? ==> r.error == ParseError(DuplicateSection, n, raw)
    ensures r.Success? ==>
      && r.value.pending == [] && r.value.current.Some?
      && Same(st.doc.policy, r.value.doc.sections[r.value.current.value].name, name)
      && r.value.doc.global == st.doc.global
    ensures r.Success? && !ContainsSection(st.doc.policy, st.doc.sections, name) ==>
      r.value.doc.sections == st.doc.sections + [Entry(name, st.pending, [])]
  {
    var p := st.doc.policy;
    match IndexOf(p, st.doc.sections, name)
    case Some(i) =>
      if cfg.allowDuplicateSections then
        var s := st.doc.sections[i];
        Success(State(st.doc.(sections := st.doc.sections[i := s.(comments := s.comments + st.pending)]), Some(i), []))
      else Failure(ParseError(DuplicateSection, n, raw))
    case None =>
      var e: Section := Entry(name, st.pending, []);
      assert Same(p, (st.doc.sections + [e])[|st.doc.sections|].name, name);
      Success(State(st.doc.(sections := st.doc.sections + [e]), Some(|st.doc.sections|), []))
  }

  /** A key line: stores the key in the current section (or the global
      collection before any header) with the pending comments. A repeated
      key overwrites value and comments when duplicates are allowed, and is
      an error otherwise. */
  function AddProperty(cfg: Configuration, st: State, n: nat, raw: string, key: string, value: string): (r: Result<State, ParseError>)
    requires Valid(st)
    ensures r.Success? ==> Valid(r.value) && r.value.doc.policy == st.doc.policy
    ensures r.Success? && WellFormed(st.doc) ==> WellFormed(r.value.doc)
    ensures r.Failure? <==> ContainsKey(st.doc.policy, CurrentKeys(st), key) && !cfg.allowDuplicateKeys
    ensures r.Failure? ==> r.error == ParseError(DuplicateKey, n, raw)
    ensures r.Success? ==>
      && r.value.pending == [] && r.value.current == st.current
      && CurrentKeys(r.value) == Put(st.doc.policy, CurrentKeys(st), Entry(key, st.pending, value))
    ensures r.Success? && st.current.None? ==> r.value.doc.sections == st.doc.sections
    ensures r.Success? && st.current.Some? ==>
      && r.value.doc.global == st.doc.global
      && |r.value.doc.sections| == |st.doc.sections|
      && (forall i :: 0 <= i < |st.doc.sections| && i != st.current.value ==> r.value.doc.sections[i] == st.doc.sections[i])
      && r.value.doc.sections[st.current.value].name == st.doc.sections[st.current.value].name
      && r.value.doc.sections[st.current.value].comments == st.doc.sections[st.current.value].comments
  {
    var p := st.doc.policy;
    var ks := CurrentKeys(st);
    if ContainsKey(p, ks, key) && !cfg.allowDuplicateKeys then Failure(ParseError(DuplicateKey, n, raw))
    else
      var r := WithCurrentKeys(st, Put(p, ks, Entry(key, st.pending, value))).(pending := []);
      assert WellFormed(st.doc) ==> WellFormed(r.doc) by {
        if WellFormed(st.doc) {
          assert Unique(p, r.doc.sections);
        }
      }
      Success(r)
  }

  /** Each raw line paired with its classification. */
  function LexLines(scheme: Scheme, lines: seq<string>): (r: seq<(string, Line)>)
    ensures |r| == |lines|
    ensures forall i :: 0 <= i < |lines| ==> r[i] == (lines[i], Classify(scheme, lines[i]))
  {
    seq(|lines|, i requires 0 <= i < |lines| => (lines[i], Classify(scheme, lines[i])))
  }

  /** Processes classified lines, the first of which has number `n`,
      stopping at the first failure. */
  function ParseLines(cfg: Configuration, st: State, lines: seq<(string, Line)>, n: nat): (r: Result<State, ParseError>)
    requires Valid(st)
    ensures r.Success? ==> Valid(r.value) && r.value.doc.policy == st.doc.policy
    ensures r.Success? && WellFormed(st.doc) ==> WellFormed(r.value.doc)
    ensures r.Failure? ==> n <= r.error.lineNumber < n + |lines| && r.error.line == lines[r.error.lineNumber - n].0
    decreases |lines|
  {
    if |lines| == 0 then Success(st)
    else
      match Step(cfg, st, n, lines[0].0, lines[0].1)
      case Failure(e) => Failure(e)
      case Success(st1) => ParseLines(cfg, st1, lines[1..], n + 1)
  }

  /** The state parsing starts from: an empty document in the configured
      case policy, in the global scope, with no pending comments. */
  function Initial(cfg: Configuration): State {
    State(Empty(PolicyOf(cfg)), None, [])
  }

  /** `IniDataParser.Parse`: parses already-split lines into a document.
      Comment lines left pending after the last element are dropped. */
  function Parse(cfg: Configuration, scheme: Scheme, lines: seq<string>): (r: Result<IniData, ParseError>)
    ensures r.Success? ==> WellFormed(r.value) && r.value.policy == PolicyOf(cfg)
    ensures r.Failure? ==> 1 <= r.error.lineNumber <= |lines| && r.error.line == lines[r.error.lineNumber - 1]
  {
    match ParseLines(cfg, Initial(cfg), LexLines(scheme, lines), 1)
    case Success(st) => Success(st.doc)
    case Failure(e) => Failure(e)
  }

  /** The first line is processed first. */
  lemma ParseLinesCons(cfg: Configuration, st: State, xs: seq<(string, Line)>, n: nat)
    requires Valid(st) && |xs| > 0
    ensures ParseLines(cfg, st, xs, n) ==
      match Step(cfg, st, n, xs[0].0, xs[0].1)
      case Success(st1) => ParseLines(cfg, st1, xs[1..], n + 1)
      case Failure(e) => Failure(e)
  {
  }

  /** Parsing `a + b` is parsing `a`, then `b` from the state `a` left. */
  lemma {:induction false} ParseLinesAppend(cfg: Configuration, st: State, a: seq<(string, Line)>, b: seq<(string, Line)>, n: nat)
    requires Valid(st)
    ensures ParseLines(cfg, st, a + b, n) ==
      match ParseLines(cfg, st, a, n)
      case Success(st1) => ParseLines(cfg, st1, b, n + |a|)
      case Failure(e) => Failure(e)
    decreases |a|
  {
    if |a| == 0 {
      assert a + b == b;
    } else {
      var ab := a + b;
      assert ab[0] == a[0] && ab[1..] == a[1..] + b;
      ParseLinesCons(cfg, st, ab, n);
      ParseLinesCons(cfg, st, a, n);
      var r1 := Step(cfg, st, n, a[0].0, a[0].1);
      if r1.Success? {
        ParseLinesAppend(cfg, r1.value, a[1..], b, n + 1);
      }
    }
  }

  /** Dangling comments: comment lines after the last key or section attach
      to nothing, so appending one leaves the parsed document as it was. */
  lemma TrailingCommentDropped(cfg: Configuration, scheme: Scheme, lines: seq<string>, comment: string)
    requires Classify(scheme, comment).Comment?
    ensures Parse(cfg, scheme, lines + [comment]) == Parse(cfg, scheme, lines)
  {
    var last := [(comment, Classify(scheme, comment))];
    LexLinesSnoc(scheme, lines, comment);
    ParseLinesAppend(cfg, Initial(cfg), LexLines(scheme, lines), last, 1);
    var r := ParseLines(cfg, Initial(cfg), LexLines(scheme, lines), 1);
    if r.Success? {
      assert ParseLines(cfg, r.value, last, 1 + |lines|) == Success(r.value.(pending := r.value.pending + [Classify(scheme, comment).text]));
    }
  }

  /** Lexing is line by line: an appended line is lexed on its own. */
  lemma LexLinesSnoc(scheme: Scheme, lines: seq<string>, line: string)
    ensures LexLines(scheme, lines + [line]) == LexLines(scheme, lines) + [(line, Classify(scheme, line))]
  {
    var a := LexLines(scheme, lines + [line]);
    var b := LexLines(scheme, lines) + [(line, Classify(scheme, line))];
    assert |a| == |b|;
    forall i | 0 <= i < |a|
      ensures a[i] == b[i]
    {
      if i < |lines| {
        assert (lines + [line])[i] == lines[i];
      }
    }
  }
}

=== FILE: scenarios.dfy ===
/** The unit-test scenarios of the INI data fixture, replayed on the model
    with the exact inputs and expectations of each test. */
module Scenarios {
  import opened Wrappers
  import opened Text
  import opened Names
  import opened Collection
  import opened Keys
  import opened Sections
  import opened Document
  import opened Parser
  import opened Fixture

  /** One successful step of the line loop, at line index `k`. */
  lemma StepAt(cfg: Configuration, st: State, lexed: seq<(string, Line)>, k: nat, st1: State)
    requires Valid(st) && k < |lexed|
    requires Step(cfg, st, k + 1, lexed[k].0, lexed[k].1) == Success(st1)
    ensures ParseLines(cfg, st, lexed[k..], k + 1) == ParseLines(cfg, st1, lexed[k + 1..], k + 2)
  {
    assert lexed[k..][0] == lexed[k];
    assert lexed[k..][1..] == lexed[k + 1..];
  }

  /** A blank line at index `k` leaves the state as it is. */
  lemma BlankAt(cfg: Configuration, st: State, lexed: seq<(string, Line)>, k: nat)
    requires Valid(st) && k < |lexed| && lexed[k].1 == Blank
    ensures ParseLines(cfg, st, lexed[k..], k + 1) == ParseLines(cfg, st, lexed[k + 1..], k + 2)
  {
    StepAt(cfg, st, lexed, k, st);
  }

  /** A comment line at index `k` only extends the pending comments. */
  lemma CommentAt(cfg: Configuration, st: State, lexed: seq<(string, Line)>, k: nat, c: string, st1: State)
    requires Valid(st) && k < |lexed| && lexed[k].1 == Comment(c)
    requires st1 == st.(pending := st.pending + [c])
    ensures ParseLines(cfg, st, lexed[k..], k + 1) == ParseLines(cfg, st1, lexed[k + 1..], k + 2)
  {
    StepAt(cfg, st, lexed, k, st1);
  }

  /** A key line at index `k` whose key is new appends it to the current
      collection with the pending comments. */
  lemma KeyAt(cfg: Configuration, st: State, lexed: seq<(string, Line)>, k: nat, key: string, value: string, st1: State)
    requires Valid(st) && k < |lexed| && lexed[k].1 == KeyValue(key, value)
    requires !ContainsKey(st.doc.policy, CurrentKeys(st), key)
    requires st1 == WithCurrentKeys(st, CurrentKeys(st) + [Entry(key, st.pending, value)]).(pending := [])
    ensures ParseLines(cfg, st, lexed[k..], k + 1) == ParseLines(cfg, st1, lexed[k + 1..], k + 2)
  {
    AddNew(cfg, st, k + 1, lexed[k].0, key, value);
    StepAt(cfg, st, lexed, k, st1);
  }

  /** A header line at index `k` naming a new section appends and opens it. */
  lemma HeaderAt(cfg: Configuration, st: State, lexed: seq<(string, Line)>, k: nat, name: string, st1: State)
    requires Valid(st) && k < |lexed| && lexed[k].1 == Header(name)
    requires !ContainsSection(st.doc.policy, st.doc.sections, name)
    requires st1 == State(st.doc.(sections := st.doc.sections + [Entry(name, st.pending, [])]), Some(|st.doc.sections|), [])
    ensures ParseLines(cfg, st, lexed[k..], k + 1) == ParseLines(cfg, st1, lexed[k + 1..], k + 2)
  {
    OpenNew(cfg, st, k + 1, lexed[k].0, name);
    StepAt(cfg, st, lexed, k, st1);
  }

  /** The line loop run to the end of its input. */
  lemma RunEnd(cfg: Configuration, st: State, lexed: seq<(string, Line)>)
    requires Valid(st)
    ensures ParseLines(cfg, st, lexed[|lexed|..], |lexed| + 1) == Success(st)
  {
    assert lexed[|lexed|..] == [];
  }

  lemma CommentsLex(lines: seq<string>)
    requires |lines| == 3 && lines[0] == ";comment1" && lines[1] == "key1 = 2" && lines[2] == ";comment2"
    ensures Classify(DefaultScheme, lines[0]) == Comment("comment1")
    ensures Classify(DefaultScheme, lines[1]) == KeyValue("key1", "2")
    ensures Classify(DefaultScheme, lines[2]) == Comment("comment2")
  {
    LineComment1(lines[0]);
    LineKey1(lines[1]);
    LineComment2(lines[2]);
  }

  // The states the comment fixtures pass through.

  function CommentsState1(): State { State(IniData(CaseSensitive, [], []), None, ["comment1"]) }
  function CommentsState2(): State { State(IniData(CaseSensitive, [Entry("key1", ["comment1"], "2")], []), None, []) }
  function CommentsGlobalState(): State {
    State(IniData(CaseSensitive, [Entry("key1", ["comment1"], "2")], []), None, ["comment2"])
  }

  lemma Comments0(lexed: seq<(string, Line)>)
    requires |lexed| >= 1 && lexed[0].1 == Comment("comment1")
    ensures ParseLines(DefaultConfiguration, Initial(DefaultConfiguration), lexed, 1) ==
      ParseLines(DefaultConfiguration, CommentsState1(), lexed[1..], 2)
  {
    var s0 := Initial(DefaultConfiguration);
    assert s0.pending + ["comment1"] == ["comment1"];
    CommentAt(DefaultConfiguration, s0, lexed, 0, "comment1", CommentsState1());
    assert lexed[0..] == lexed;
  }

  lemma Comments1(lexed: seq<(string, Line)>)
    requires |lexed| >= 2 && lexed[1].1 == KeyValue("key1", "2")
    ensures ParseLines(DefaultConfiguration, CommentsState1(), lexed[1..], 2) ==
      ParseLines(DefaultConfiguration, CommentsState2(), lexed[2..], 3)
  {
    var k := Entry("key1", ["comment1"], "2");
    assert CurrentKeys(CommentsState1()) + [k] == [k];
    KeyAt(DefaultConfiguration, CommentsState1(), lexed, 1, "key1", "2", CommentsState2());
  }

  lemma Comments2(lexed: seq<(string, Line)>)
    requires |lexed| >= 3 && lexed[2].1 == Comment("comment2")
    ensures ParseLines(DefaultConfiguration, CommentsState2(), lexed[2..], 3) ==
      ParseLines(DefaultConfiguration, CommentsGlobalState(), lexed[3..], 4)
  {
    assert CommentsState2().pending + ["comment2"] == ["comment2"];
    CommentAt(DefaultConfiguration, CommentsState2(), lexed, 2, "comment2", CommentsGlobalState());
  }

  lemma CommentsRun(lexed: seq<(string, Line)>)
    requires |lexed| == 3
    requires lexed[0].1 == Comment("comment1") && lexed[1].1 == KeyValue("key1", "2") && lexed[2].1 == Comment("comment2")
    ensures ParseLines(DefaultConfiguration, Initial(DefaultConfiguration), lexed, 1) == Success(CommentsGlobalState())
  {
    Comments0(lexed);
    Comments1(lexed);
    Comments2(lexed);
    RunEnd(DefaultConfiguration, CommentsGlobalState(), lexed);
  }

  /** parse_comments: a comment before the first global key lands on it;
      the dangling comment at the end attaches to nothing. */
  lemma ParseCommentsScenario(lines: seq<string>)
    requires |lines| == 3 && lines[0] == ";comment1" && lines[1] == "key1 = 2" && lines[2] == ";comment2"
    ensures Parse(DefaultConfiguration, DefaultScheme, lines) ==
      Success(IniData(CaseSensitive, [Entry("key1", ["comment1"], "2")], []))
  {
    CommentsLex(lines);
    CommentsRun(LexLines(DefaultScheme, lines));
  }

  /** The document the delete_all_comments fixture parses to. */
  const CommentedDoc := IniData(CaseSensitive, [Entry("key1", ["comment1"], "2")],
    [Entry("section1", ["comment2"], [Entry("value1", ["a value"], "10.6")])])

  lemma DeleteCommentsLex(lines: seq<string>)
    requires |lines| == 7 && lines[0] == ";comment1" && lines[1] == "key1 = 2" && lines[2] == ";comment2"
    requires lines[3] == "[section1]" && lines[4] == "" && lines[5] == ";a value" && lines[6] == "value1 = 10.6"
    ensures Classify(DefaultScheme, lines[0]) == Comment("comment1")
    ensures Classify(DefaultScheme, lines[1]) == KeyValue("key1", "2")
    ensures Classify(DefaultScheme, lines[2]) == Comment("comment2")
    ensures Classify(DefaultScheme, lines[3]) == Header("section1")
    ensures Classify(DefaultScheme, lines[4]) == Blank
    ensures Classify(DefaultScheme, lines[5]) == Comment("a value")
    ensures Classify(DefaultScheme, lines[6]) == KeyValue("value1", "10.6")
  {
    LineComment1(lines[0]);
    LineKey1(lines[1]);
    LineComment2(lines[2]);
    LineSection1(lines[3]);
    ClassifyBlank(DefaultScheme, lines[4]);
    LineAValue(lines[5]);
    LineValue1(lines[6]);
  }

  /** A header whose section does not exist yet appends it, with the
      pending comments, and makes it current. */
  lemma OpenNew(cfg: Configuration, st: State, n: nat, raw: string, name: string)
    requires Valid(st) && !ContainsSection(st.doc.policy, st.doc.sections, name)
    ensures OpenSection(cfg, st, n, raw, name) ==
      Success(State(st.doc.(sections := st.doc.sections + [Entry(name, st.pending, [])]), Some(|st.doc.sections|), []))
  {
    ContainsIff(st.doc.policy, st.doc.sections, name);
  }

  /** A key not yet in the current collection is appended to it, with the
      pending comments. */
  lemma AddNew(cfg: Configuration, st: State, n: nat, raw: string, key: string, value: string)
    requires Valid(st) && !ContainsKey(st.doc.policy, CurrentKeys(st), key)
    ensures AddProperty(cfg, st, n, raw, key, value) ==
      Success(WithCurrentKeys(st, CurrentKeys(st) + [Entry(key, st.pending, value)]).(pending := []))
  {
    ContainsIff(st.doc.policy, CurrentKeys(st), key);
  }

  /** The state after the header and the blank line below it. */
  function CommentsSectionState(): State {
    State(IniData(CaseSensitive, [Entry("key1", ["comment1"], "2")], [Entry("section1", ["comment2"], [])]), Some(0), [])
  }

  function CommentsValueState(): State {
    State(IniData(CaseSensitive, [Entry("key1", ["comment1"], "2")], [Entry("section1", ["comment2"], [])]), Some(0), ["a value"])
  }

  lemma DeleteComments3(lexed: seq<(string, Line)>)
    requires |lexed| == 7 && lexed[3].1 == Header("section1")
    ensures ParseLines(DefaultConfiguration, CommentsGlobalState(), lexed[3..], 4) ==
      ParseLines(DefaultConfiguration, CommentsSectionState(), lexed[4..], 5)
  {
    var s := CommentsGlobalState();
    assert s.doc.sections + [Entry("section1", s.pending, [])] == CommentsSectionState().doc.sections;
    HeaderAt(DefaultConfiguration, s, lexed, 3, "section1", CommentsSectionState());
  }

  lemma DeleteComments4(lexed: seq<(string, Line)>)
    requires |lexed| == 7 && lexed[4].1 == Blank && lexed[5].1 == Comment("a value")
    ensures ParseLines(DefaultConfiguration, CommentsSectionState(), lexed[4..], 5) ==
      ParseLines(DefaultConfiguration, CommentsValueState(), lexed[6..], 7)
  {
    var s := CommentsSectionState();
    BlankAt(DefaultConfiguration, s, lexed, 4);
    assert s.pending + ["a value"] == ["a value"];
    CommentAt(DefaultConfiguration, s, lexed, 5, "a value", CommentsValueState());
  }

  lemma DeleteComments6(lexed: seq<(string, Line)>)
    requires |lexed| == 7 && lexed[6].1 == KeyValue("value1", "10.6")
    ensures ParseLines(DefaultConfiguration, CommentsValueState(), lexed[6..], 7) == Success(State(CommentedDoc, Some(0), []))
  {
    var s := CommentsValueState();
    var v := Entry("value1", ["a value"], "10.6");
    assert CurrentKeys(s) + [v] == [v];
    assert WithCurrentKeys(s, [v]).doc == CommentedDoc;
    KeyAt(DefaultConfiguration, s, lexed, 6, "value1", "10.6", State(CommentedDoc, Some(0), []));
    RunEnd(DefaultConfiguration, State(CommentedDoc, Some(0), []), lexed);
  }

  lemma DeleteCommentsRun(lexed: seq<(string, Line)>)
    requires |lexed| == 7 && lexed[0].1 == Comment("comment1") && lexed[1].1 == KeyValue("key1", "2") && lexed[2].1 == Comment("comment2")
    requires lexed[3].1 == Header("section1") && lexed[4].1 == Blank && lexed[5].1 == Comment("a value")
    requires lexed[6].1 == KeyValue("value1", "10.6")
    ensures ParseLines(DefaultConfiguration, Initial(DefaultConfiguration), lexed, 1) == Success(State(CommentedDoc, Some(0), []))
  {
    Comments0(lexed);
    Comments1(lexed);
    Comments2(lexed);
    DeleteComments3(lexed);
    DeleteComments4(lexed);
    DeleteComments6(lexed);
  }

  /** Clearing the comments of the delete_all_comments document. */
  lemma ClearCommentedDoc()
    ensures ClearAllComments(CommentedDoc) ==
      IniData(CaseSensitive, [Entry("key1", [], "2")], [Entry("section1", [], [Entry("value1", [], "10.6")])])
  {
    var r := ClearAllComments(CommentedDoc);
    assert r.global == [Entry("key1", [], "2")];
    assert r.sections[0].data == [Entry("value1", [], "10.6")];
  }

  /** delete_all_comments: each comment lands on the element below it, a
      blank line between a comment and its key does not detach it, and
      clearing removes every comment while keeping every value. */
  lemma DeleteCommentsScenario(lines: seq<string>)
    requires |lines| == 7 && lines[0] == ";comment1" && lines[1] == "key1 = 2" && lines[2] == ";comment2"
    requires lines[3] == "[section1]" && lines[4] == "" && lines[5] == ";a value" && lines[6] == "value1 = 10.6"
    ensures Parse(DefaultConfiguration, DefaultScheme, lines) == Success(CommentedDoc)
    ensures ClearAllComments(CommentedDoc) ==
      IniData(CaseSensitive, [Entry("key1", [], "2")], [Entry("section1", [], [Entry("value1", [], "10.6")])])
  {
    DeleteCommentsLex(lines);
    DeleteCommentsRun(LexLines(DefaultScheme, lines));
    ClearCommentedDoc();
  }

  /** check_add_keydata_method_using_key_and_value_strings: a key added to
      a freshly added section reads back. */
  lemma AddKeyDataScenario()
    ensures var d := SetValue(Document.AddSection(Empty(CaseSensitive), "newSection"), "newSection", "newKey1", "value1");
      d.Some? && GetValue(d.value, "newSection", "newKey1") == Some("value1")
  {
    AddSectionThenSet(Empty(CaseSensitive), "newSection", "newKey1", "value1");
  }

  /** The writes of the case-insensitive fixtures, in order. */
  predicate CaseWrites(writes: seq<(string, string)>) {
    |writes| == 3 && writes[0] == ("keY1", "value1") && writes[1] == ("KEY2", "value2") && writes[2] == ("KeY2", "value3")
  }

  /** The spellings of the first key name in the fixtures fold to `key1`. */
  lemma FoldKey1(s: string)
    requires s == "key1" || s == "keY1" || s == "KEY1"
    ensures Lower(s) == "key1"
  {
  }

  /** The spellings of the second key name fold to `key2`. */
  lemma FoldKey2(s: string)
    requires s == "key2" || s == "KEY2" || s == "KeY2" || s == "Key2"
    ensures Lower(s) == "key2"
  {
  }

  /** The last of the fixture writes to any spelling of a name: the first
      write for `key1`, the third for `key2`. */
  lemma CaseWritesLast(writes: seq<(string, string)>, q: string)
    requires CaseWrites(writes) && (Lower(q) == "key1" || Lower(q) == "key2")
    ensures LastWrite(CaseInsensitive, writes, q) == Some(if Lower(q) == "key1" then "value1" else "value3")
  {
    FoldKey1(writes[0].0);
    FoldKey2(writes[1].0);
    FoldKey2(writes[2].0);
    var w2 := writes[..2];
    var w1 := writes[..1];
    var p := CaseInsensitive;
    assert w2[1] == writes[1] && w2[..1] == w1;
    assert w1[0] == writes[0];
    assert LastWrite(p, w1, q) == if Same(p, writes[0].0, q) then Some(writes[0].1) else LastWrite(p, w1[..0], q);
    assert LastWrite(p, w2, q) == if Same(p, writes[1].0, q) then Some(writes[1].1) else LastWrite(p, w1, q);
    assert LastWrite(p, writes, q) == if Same(p, writes[2].0, q) then Some(writes[2].1) else LastWrite(p, w2, q);
  }

  /** Last write wins across case variants: any spelling of `key1` reads
      the first write, any spelling of `key2` the third. */
  lemma CaseKeysRead(writes: seq<(string, string)>, q: string)
    requires CaseWrites(writes) && (Lower(q) == "key1" || Lower(q) == "key2")
    ensures Get(CaseInsensitive, AddKeys(CaseInsensitive, [], writes), q) == Some(if Lower(q) == "key1" then "value1" else "value3")
  {
    CaseWritesLast(writes, q);
    GetAfterAddKeys(CaseInsensitive, [], writes, q);
  }

  /** Both spellings of the section name fold alike. */
  lemma FoldTestSection(s: string)
    requires s == "testsection" || s == "TestSection" || s == "testSection"
    ensures Lower(s) == "testsection"
  {
  }

  /** The keys of the fixture's standalone section: built on its own, it
      compares names case-sensitively, so the three writes make three keys. */
  const StandaloneKeys: seq<Property> :=
    [Entry("keY1", [], "value1"), Entry("KEY2", [], "value2"), Entry("KeY2", [], "value3")]

  /** Case-sensitive `AddKey` of a name the collection does not hold appends it. */
  lemma AppendNewKey(ks: seq<Property>, name: string, value: string)
    requires forall i :: 0 <= i < |ks| ==> ks[i].name != name
    ensures AddKey(CaseSensitive, ks, name, value) == ks + [Entry(name, [], value)]
  {
    ContainsIff(CaseSensitive, ks, name);
    var r := AddKey(CaseSensitive, ks, name, value);
    assert forall i :: 0 <= i < |ks| ==> r[i] == ks[i];
  }

  /** Three case-sensitive `AddKey` calls under pairwise distinct names
      append three entries, in order. */
  lemma {:induction false} AddThreeKeys(w: seq<(string, string)>)
    requires |w| == 3 && w[0].0 != w[1].0 && w[0].0 != w[2].0 && w[1].0 != w[2].0
    ensures AddKeys(CaseSensitive, [], w) == [Entry(w[0].0, [], w[0].1), Entry(w[1].0, [], w[1].1), Entry(w[2].0, [], w[2].1)]
  {
    var a, b, c := w[0], w[1], w[2];
    var k1 := [Entry(a.0, [], a.1)];
    var k2 := k1 + [Entry(b.0, [], b.1)];
    assert w[..1][..0] == [] && w[..1][0] == a;
    AppendNewKey([], a.0, a.1);
    assert AddKeys(CaseSensitive, [], w[..1]) == k1;
    assert w[..2][..1] == w[..1] && w[..2][1] == b;
    AppendNewKey(k1, b.0, b.1);
    assert AddKeys(CaseSensitive, [], w[..2]) == k2;
    assert w[..2] == w[..|w| - 1];
    AppendNewKey(k2, c.0, c.1);
  }

  lemma StandaloneWrites(writes: seq<(string, string)>)
    requires CaseWrites(writes)
    ensures AddKeys(CaseSensitive, [], writes) == StandaloneKeys
  {
    assert "keY1"[0] != "KEY2"[0] && "keY1"[0] != "KeY2"[0] && "KEY2"[1] != "KeY2"[1];
    AddThreeKeys(writes);
  }

  /** Under the case-insensitive policy the last of the standalone keys
      named like `q` is the first key for `key1` and the third for `key2`. */
  lemma StandaloneLastMatch(q: string)
    requires Lower(q) == "key1" || Lower(q) == "key2"
    ensures LastMatch(CaseInsensitive, StandaloneKeys, q) ==
      Some(if Lower(q) == "key1" then StandaloneKeys[0] else StandaloneKeys[2])
  {
    FoldKey1("keY1");
    FoldKey2("KEY2");
    FoldKey2("KeY2");
    assert StandaloneKeys[..2] == [StandaloneKeys[0], StandaloneKeys[1]];
    assert StandaloneKeys[..2][..1] == [StandaloneKeys[0]];
  }

  /** A section added whole to an empty case-insensitive document resolves
      under every spelling of its name to its keys, re-keyed. */
  lemma CaseSectionLookup(ks: seq<Property>, q: string)
    requires Lower(q) == "testsection"
    ensures var d := Document.AddSectionData(Empty(CaseInsensitive), Entry("TestSection", [], ks));
      ContainsSection(CaseInsensitive, d.sections, q) && SectionKeys(d, q) == Some(Adopt(CaseInsensitive, Entry("TestSection", [], ks)).data)
  {
    FoldTestSection("TestSection");
    GetAfterAddSectionData(CaseInsensitive, [], Entry("TestSection", [], ks), q);
  }

  /** Reading the standalone section's keys once the document has taken them in. */
  lemma StandaloneReads(q: string)
    requires Lower(q) == "key1" || Lower(q) == "key2"
    ensures Get(CaseInsensitive, Adopt(CaseInsensitive, Entry("TestSection", [], StandaloneKeys)).data, q) ==
      Some(if Lower(q) == "key1" then "value1" else "value3")
  {
    StandaloneLastMatch(q);
  }

  /** resolve_case_insensitive_names: a section built on its own with case
      variants of one key name, then added to a case-insensitive document,
      holds there the last value written under any of them, and the section
      resolves under any spelling of its name. */
  lemma CaseInsensitiveSectionScenario(writes: seq<(string, string)>)
    requires CaseWrites(writes)
    ensures var d := Document.AddSectionData(Empty(CaseInsensitive), Entry("TestSection", [], AddKeys(CaseSensitive, [], writes)));
      && ContainsSection(CaseInsensitive, d.sections, "testsection")
      && ContainsSection(CaseInsensitive, d.sections, "TestSection")
      && GetValue(d, "TestSection", "key1") == Some("value1")
      && GetValue(d, "TestSection", "keY1") == Some("value1")
      && GetValue(d, "TestSection", "KEY2") == Some("value3")
      && GetValue(d, "TestSection", "KeY2") == Some("value3")
      && GetValue(d, "TestSection", "key2") == Some("value3")
  {
    StandaloneWrites(writes);
    var ks := StandaloneKeys;
    FoldTestSection("testsection");
    FoldTestSection("TestSection");
    CaseSectionLookup(ks, "testsection");
    CaseSectionLookup(ks, "TestSection");
    FoldKey1("key1");
    FoldKey1("keY1");
    FoldKey2("KEY2");
    FoldKey2("KeY2");
    FoldKey2("key2");
    StandaloneReads("key1");
    StandaloneReads("keY1");
    StandaloneReads("KEY2");
    StandaloneReads("KeY2");
    StandaloneReads("key2");
  }

  /** Three writes into the global collection build what `AddKeys` does. */
  lemma GlobalWrites(d: IniData, writes: seq<(string, string)>)
    requires |writes| == 3
    ensures SetGlobal(SetGlobal(SetGlobal(d, writes[0].0, writes[0].1), writes[1].0, writes[1].1), writes[2].0, writes[2].1).global ==
      AddKeys(d.policy, d.global, writes)
  {
    var p := d.policy;
    var k1 := Set(p, d.global, writes[0].0, writes[0].1);
    var k2 := Set(p, k1, writes[1].0, writes[1].1);
    assert AddKeys(p, d.global, writes[..1]) == k1 by {
      assert writes[..1][..0] == [] && writes[..1][0] == writes[0];
    }
    assert AddKeys(p, d.global, writes[..2]) == k2 by {
      assert writes[..2][..1] == writes[..1] && writes[..2][1] == writes[1];
    }
  }

  /** resolve_case_insensitive_names_in_global: the same writes into the
      global collection of a case-insensitive document (two `AddKey` calls
      and one indexed write) leave one entry per folded name. */
  lemma CaseInsensitiveGlobalScenario(writes: seq<(string, string)>)
    requires CaseWrites(writes)
    ensures var d := SetGlobal(SetGlobal(SetGlobal(Empty(CaseInsensitive), writes[0].0, writes[0].1), writes[1].0, writes[1].1), writes[2].0, writes[2].1);
      && GetGlobal(d, "key1") == Some("value1")
      && GetGlobal(d, "keY1") == Some("value1")
      && GetGlobal(d, "KEY2") == Some("value3")
      && GetGlobal(d, "KeY2") == Some("value3")
      && GetGlobal(d, "key2") == Some("value3")
  {
    GlobalWrites(Empty(CaseInsensitive), writes);
    FoldKey1("key1");
    FoldKey1("keY1");
    FoldKey2("KEY2");
    FoldKey2("KeY2");
    FoldKey2("key2");
    CaseKeysRead(writes, "key1");
    CaseKeysRead(writes, "keY1");
    CaseKeysRead(writes, "KEY2");
    CaseKeysRead(writes, "KeY2");
    CaseKeysRead(writes, "key2");
  }

  /** The parser configuration of the case-insensitive fixture. */
  const CaseConfiguration := DefaultConfiguration.(caseInsensitive := true)

  /** The document the case-insensitive fixture parses to: names are kept
      as written. */
  const CaseDoc := IniData(CaseInsensitive, [],
    [Entry("TestSection", [], [Entry("KEY1", [], "value1"), Entry("KEY2", [], "value2")])])

  lemma ParseCaseLex(lines: seq<string>)
    requires |lines| == 3 && lines[0] == "[TestSection]"
    requires lines[1] == "            KEY1 = value1" && lines[2] == "            KEY2 = value2"
    ensures Classify(DefaultScheme, lines[0]) == Header("TestSection")
    ensures Classify(DefaultScheme, lines[1]) == KeyValue("KEY1", "value1")
    ensures Classify(DefaultScheme, lines[2]) == KeyValue("KEY2", "value2")
  {
    LineTestSection(lines[0]);
    LineIndentedKey1(lines[1]);
    LineIndentedKey2(lines[2]);
  }

  // The states the case-insensitive fixture passes through.

  function CaseHeaderState(): State {
    State(IniData(CaseInsensitive, [], [Entry("TestSection", [], [])]), Some(0), [])
  }
  function CaseFirstKeyState(): State {
    State(IniData(CaseInsensitive, [], [Entry("TestSection", [], [Entry("KEY1", [], "value1")])]), Some(0), [])
  }

  lemma ParseCase0(lexed: seq<(string, Line)>)
    requires |lexed| == 3 && lexed[0].1 == Header("TestSection")
    ensures ParseLines(CaseConfiguration, Initial(CaseConfiguration), lexed, 1) ==
      ParseLines(CaseConfiguration, CaseHeaderState(), lexed[1..], 2)
  {
    var s := Initial(CaseConfiguration);
    assert s == State(IniData(CaseInsensitive, [], []), None, []);
    HeaderAt(CaseConfiguration, s, lexed, 0, "TestSection", CaseHeaderState());
    assert lexed[0..] == lexed;
  }

  lemma ParseCase1(lexed: seq<(string, Line)>)
    requires |lexed| == 3 && lexed[1].1 == KeyValue("KEY1", "value1")
    ensures ParseLines(CaseConfiguration, CaseHeaderState(), lexed[1..], 2) ==
      ParseLines(CaseConfiguration, CaseFirstKeyState(), lexed[2..], 3)
  {
    var s := CaseHeaderState();
    var k := Entry("KEY1", [], "value1");
    assert CurrentKeys(s) + [k] == [k];
    assert WithCurrentKeys(s, [k]) == CaseFirstKeyState();
    KeyAt(CaseConfiguration, s, lexed, 1, "KEY1", "value1", CaseFirstKeyState());
  }

  lemma ParseCase2(lexed: seq<(string, Line)>)
    requires |lexed| == 3 && lexed[2].1 == KeyValue("KEY2", "value2")
    ensures ParseLines(CaseConfiguration, CaseFirstKeyState(), lexed[2..], 3) == Success(State(CaseDoc, Some(0), []))
  {
    var s := CaseFirstKeyState();
    var k := Entry("KEY2", [], "value2");
    FoldKey1("KEY1");
    FoldKey2("KEY2");
    ContainsIff(CaseInsensitive, CurrentKeys(s), "KEY2");
    assert CurrentKeys(s) + [k] == CaseDoc.sections[0].data;
    assert WithCurrentKeys(s, CaseDoc.sections[0].data) == State(CaseDoc, Some(0), []);
    KeyAt(CaseConfiguration, s, lexed, 2, "KEY2", "value2", State(CaseDoc, Some(0), []));
    RunEnd(CaseConfiguration, State(CaseDoc, Some(0), []), lexed);
  }

  /** Reading the parsed case-insensitive document under other spellings. */
  lemma CaseDocReads()
    ensures GetValue(CaseDoc, "testsection", "key1") == Some("value1")
    ensures GetValue(CaseDoc, "testSection", "Key2") == Some("value2")
  {
    var p := CaseInsensitive;
    FoldTestSection("TestSection");
    FoldTestSection("testsection");
    FoldTestSection("testSection");
    FindAt(p, CaseDoc.sections, 0, "testsection");
    FindAt(p, CaseDoc.sections, 0, "testSection");
    FoldKey1("KEY1");
    FoldKey1("key1");
    FoldKey2("KEY2");
    FoldKey2("Key2");
    var ks := CaseDoc.sections[0].data;
    FindAt(p, ks, 0, "key1");
    FindAt(p, ks, 1, "Key2");
  }

  /** parse_case_insensitive_names_ini_file: with the case-insensitive
      option the parsed document resolves sections and keys under any
      spelling; indentation before a key is not part of it. */
  lemma ParseCaseInsensitiveScenario(lines: seq<string>)
    requires |lines| == 3 && lines[0] == "[TestSection]"
    requires lines[1] == "            KEY1 = value1" && lines[2] == "            KEY2 = value2"
    ensures Parse(CaseConfiguration, DefaultScheme, lines) == Success(CaseDoc)
    ensures GetValue(CaseDoc, "testsection", "key1") == Some("value1")
    ensures GetValue(CaseDoc, "testSection", "Key2") == Some("value2")
  {
    ParseCaseLex(lines);
    var lexed := LexLines(DefaultScheme, lines);
    ParseCase0(lexed);
    ParseCase1(lexed);
    ParseCase2(lexed);
    CaseDocReads();
  }

  /** The document the deep-clone fixture parses to. */
  const CloneDoc := IniData(CaseSensitive, [Entry("global", [], "1")], [Entry("section", [], [Entry("key", [], "1")])])

  lemma CloneLex(lines: seq<string>)
    requires |lines| == 5 && lines[0] == "" && lines[1] == "global = 1" && lines[2] == "[section]"
    requires lines[3] == "key = 1" && lines[4] == ""
    ensures Classify(DefaultScheme, lines[0]) == Blank
    ensures Classify(DefaultScheme, lines[1]) == KeyValue("global", "1")
    ensures Classify(DefaultScheme, lines[2]) == Header("section")
    ensures Classify(DefaultScheme, lines[3]) == KeyValue("key", "1")
    ensures Classify(DefaultScheme, lines[4]) == Blank
  {
    ClassifyBlank(DefaultScheme, lines[0]);
    LineGlobal(lines[1]);
    LineSection(lines[2]);
    LineKey(lines[3]);
    ClassifyBlank(DefaultScheme, lines[4]);
  }

  // The states the deep-clone fixture passes through.

  function CloneGlobalState(): State {
    State(IniData(CaseSensitive, [Entry("global", [], "1")], []), None, [])
  }
  function CloneSectionState(): State {
    State(IniData(CaseSensitive, [Entry("global", [], "1")], [Entry("section", [], [])]), Some(0), [])
  }

  lemma Clone0(lexed: seq<(string, Line)>)
    requires |lexed| == 5 && lexed[0].1 == Blank && lexed[1].1 == KeyValue("global", "1")
    ensures ParseLines(DefaultConfiguration, Initial(DefaultConfiguration), lexed, 1) ==
      ParseLines(DefaultConfiguration, CloneGlobalState(), lexed[2..], 3)
  {
    var s := Initial(DefaultConfiguration);
    assert s == State(IniData(CaseSensitive, [], []), None, []);
    BlankAt(DefaultConfiguration, s, lexed, 0);
    var k := Entry("global", [], "1");
    assert CurrentKeys(s) + [k] == [k];
    KeyAt(DefaultConfiguration, s, lexed, 1, "global", "1", CloneGlobalState());
    assert lexed[0..] == lexed;
  }

  lemma Clone2(lexed: seq<(string, Line)>)
    requires |lexed| == 5 && lexed[2].1 == Header("section")
    ensures ParseLines(DefaultConfiguration, CloneGlobalState(), lexed[2..], 3) ==
      ParseLines(DefaultConfiguration, CloneSectionState(), lexed[3..], 4)
  {
    var s := CloneGlobalState();
    assert s.doc.sections + [Entry("section", s.pending, [])] == CloneSectionState().doc.sections;
    HeaderAt(DefaultConfiguration, s, lexed, 2, "section", CloneSectionState());
  }

  lemma Clone3(lexed: seq<(string, Line)>)
    requires |lexed| == 5 && lexed[3].1 == KeyValue("key", "1") && lexed[4].1 == Blank
    ensures ParseLines(DefaultConfiguration, CloneSectionState(), lexed[3..], 4) == Success(State(CloneDoc, Some(0), []))
  {
    var s := CloneSectionState();
    var k := Entry("key", [], "1");
    var fin := State(CloneDoc, Some(0), []);
    assert CurrentKeys(s) + [k] == [k];
    assert WithCurrentKeys(s, [k]) == fin;
    KeyAt(DefaultConfiguration, s, lexed, 3, "key", "1", fin);
    BlankAt(DefaultConfiguration, fin, lexed, 4);
    RunEnd(DefaultConfiguration, fin, lexed);
  }

  /** Reads after writing through the clone of the deep-clone document. */
  lemma CloneWrites()
    ensures var c := SetValue(SetGlobal(DeepClone(CloneDoc), "global", "1"), "section", "key", "1");
      && c.Some?
      && GetGlobal(c.value, "global") == Some("1") && GetValue(c.value, "section", "key") == Some("1")
      && GetGlobal(CloneDoc, "global") == Some("1") && GetValue(CloneDoc, "section", "key") == Some("1")
  {
    FindAt(CaseSensitive, CloneDoc.sections, 0, "section");
    FindAt(CaseSensitive, CloneDoc.global, 0, "global");
    FindAt(CaseSensitive, CloneDoc.sections[0].data, 0, "key");
    DeepCloneIndependent(CloneDoc, "global", "1", "section", "key", "1", "section", "global");
    DeepCloneIndependent(CloneDoc, "global", "1", "section", "key", "1", "section", "key");
  }

  /** check_deep_clone: writing through the clone of a parsed document
      leaves the original reading its own values. */
  lemma DeepCloneScenario(lines: seq<string>)
    requires |lines| == 5 && lines[0] == "" && lines[1] == "global = 1" && lines[2] == "[section]"
    requires lines[3] == "key = 1" && lines[4] == ""
    ensures Parse(DefaultConfiguration, DefaultScheme, lines) == Success(CloneDoc)
    ensures var c := SetValue(SetGlobal(DeepClone(CloneDoc), "global", "1"), "section", "key", "1");
      && c.Some?
      && GetGlobal(CloneDoc, "global") == Some("1") && GetValue(CloneDoc, "section", "key") == Some("1")
  {
    CloneLex(lines);
    var lexed := LexLines(DefaultScheme, lines);
    Clone0(lexed);
    Clone2(lexed);
    Clone3(lexed);
    CloneWrites();
  }

  /** `data[section].ContainsKey(key)`, false when the section is absent. */
  predicate HasKey(d: IniData, section: string, key: string) {
    match SectionKeys(d, section)
    case Some(ks) => ContainsKey(d.policy, ks, key)
    case None => false
  }

  /** Adding a section and writing two distinct keys into it: both writes
      succeed and both keys are contained with their values. */
  lemma AddSectionWriteTwo(d: IniData, section: string, k1: string, v1: string, k2: string, v2: string)
    requires !Same(d.policy, k1, k2)
    ensures var a := SetValue(Document.AddSection(d, section), section, k1, v1);
      && a.Some?
      && var b := SetValue(a.value, section, k2, v2);
      && b.Some?
      && HasKey(b.value, section, k1) && HasKey(b.value, section, k2)
      && GetValue(b.value, section, k1) == Some(v1)
      && GetValue(b.value, section, k2) == Some(v2)
  {
    AddSectionThenSet(d, section, k1, v1);
    var a := SetValue(Document.AddSection(d, section), section, k1, v1).value;
    assert ContainsSection(d.policy, a.sections, section);
    GetAfterSetValue(a, section, k2, v2, section, k1);
    GetAfterSetValue(a, section, k2, v2, section, k2);
  }

  /** merge_programatically_created_ini_files: a document built in code,
      one global key and two sections of two keys each, holds every key it
      was given. */
  lemma ProgrammaticScenario()
    ensures var d0 := SetGlobal(Empty(CaseSensitive), "UseSeparateRepositoryForAssets", "True");
      var a := SetValue(Document.AddSection(d0, "MainRepository"), "MainRepository", "Type", "git");
      && a.Some?
      && var b := SetValue(a.value, "MainRepository", "RelativePath", ".");
      && b.Some?
      && HasKey(b.value, "MainRepository", "Type") && HasKey(b.value, "MainRepository", "RelativePath")
      && var c := SetValue(Document.AddSection(b.value, "AssetsRepository"), "AssetsRepository", "Type", "svn");
      && c.Some?
      && var e := SetValue(c.value, "AssetsRepository", "RelativePath", "./Assets");
      && e.Some?
      && HasKey(e.value, "AssetsRepository", "Type") && HasKey(e.value, "AssetsRepository", "RelativePath")
  {
    var d0 := SetGlobal(Empty(CaseSensitive), "UseSeparateRepositoryForAssets", "True");
    AddSectionWriteTwo(d0, "MainRepository", "Type", "git", "RelativePath", ".");
    var b := SetValue(SetValue(Document.AddSection(d0, "MainRepository"), "MainRepository", "Type", "git").value,
      "MainRepository", "RelativePath", ".").value;
    AddSectionWriteTwo(b, "AssetsRepository", "Type", "svn", "RelativePath", "./Assets");
  }

  /** The documents the two merge fixtures parse to. */
  const MergeDocA := IniData(CaseSensitive, [Entry("g", [], "1")],
    [Entry("s0", [], [Entry("a", [], "2")]), Entry("s1", [], [Entry("a", [], "3"), Entry("b", [], "4")])])
  const MergeDocB := IniData(CaseSensitive, [Entry("g", [], "11"), Entry("j", [], "a")],
    [Entry("s0", [], [Entry("a", [], "22"), Entry("b", [], "44")]), Entry("s2", [], [Entry("c", [], "55")])])

  predicate MergeLinesA(lines: seq<string>) {
    && |lines| == 8 && lines[0] == "" && lines[1] == "g = 1" && lines[2] == "[s0]" && lines[3] == "a = 2"
    && lines[4] == "[s1]" && lines[5] == "a = 3" && lines[6] == "b = 4" && lines[7] == ""
  }

  predicate MergeLinesB(lines: seq<string>) {
    && |lines| == 10 && lines[0] == "" && lines[1] == "g = 11" && lines[2] == "j = a" && lines[3] == "[s0]"
    && lines[4] == "a = 22" && lines[5] == "b = 44" && lines[6] == "" && lines[7] == "[s2]" && lines[8] == "c = 55"
    && lines[9] == ""
  }

  predicate MergeLexedA(lexed: seq<(string, Line)>) {
    && |lexed| == 8 && lexed[0].1 == Blank && lexed[1].1 == KeyValue("g", "1") && lexed[2].1 == Header("s0")
    && lexed[3].1 == KeyValue("a", "2") && lexed[4].1 == Header("s1") && lexed[5].1 == KeyValue("a", "3")
    && lexed[6].1 == KeyValue("b", "4") && lexed[7].1 == Blank
  }

  predicate MergeLexedB(lexed: seq<(string, Line)>) {
    && |lexed| == 10 && lexed[0].1 == Blank && lexed[1].1 == KeyValue("g", "11") && lexed[2].1 == KeyValue("j", "a")
    && lexed[3].1 == Header("s0") && lexed[4].1 == KeyValue("a", "22") && lexed[5].1 == KeyValue("b", "44")
    && lexed[6].1 == Blank && lexed[7].1 == Header("s2") && lexed[8].1 == KeyValue("c", "55") && lexed[9].1 == Blank
  }

  lemma MergeLexA(lines: seq<string>)
    requires MergeLinesA(lines)
    ensures MergeLexedA(LexLines(DefaultScheme, lines))
  {
    ClassifyBlank(DefaultScheme, lines[0]);
    LineG1(lines[1]);
    LineS0(lines[2]);
    LineA2(lines[3]);
    LineS1(lines[4]);
    LineA3(lines[5]);
    LineB4(lines[6]);
    ClassifyBlank(DefaultScheme, lines[7]);
  }

  lemma MergeLexB(lines: seq<string>)
    requires MergeLinesB(lines)
    ensures MergeLexedB(LexLines(DefaultScheme, lines))
  {
    ClassifyBlank(DefaultScheme, lines[0]);
    LineG11(lines[1]);
    LineJA(lines[2]);
    LineS0(lines[3]);
    LineA22(lines[4]);
    LineB44(lines[5]);
    ClassifyBlank(DefaultScheme, lines[6]);
    LineS2(lines[7]);
    LineC55(lines[8]);
    ClassifyBlank(DefaultScheme, lines[9]);
  }

  // The states the first merge fixture passes through.

  function StateA1(): State { State(IniData(CaseSensitive, [Entry("g", [], "1")], []), None, []) }
  function StateA1s(): State {
    State(IniData(CaseSensitive, [Entry("g", [], "1")], [Entry("s0", [], [])]), Some(0), [])
  }
  function StateA2(): State {
    State(IniData(CaseSensitive, [Entry("g", [], "1")], [Entry("s0", [], [Entry("a", [], "2")])]), Some(0), [])
  }
  function StateA2s(): State {
    State(IniData(CaseSensitive, [Entry("g", [], "1")],
      [Entry("s0", [], [Entry("a", [], "2")]), Entry("s1", [], [])]), Some(1), [])
  }
  function StateA3(): State {
    State(IniData(CaseSensitive, [Entry("g", [], "1")],
      [Entry("s0", [], [Entry("a", [], "2")]), Entry("s1", [], [Entry("a", [], "3")])]), Some(1), [])
  }

  lemma RunA1(lexed: seq<(string, Line)>)
    requires MergeLexedA(lexed)
    ensures ParseLines(DefaultConfiguration, Initial(DefaultConfiguration), lexed, 1) ==
      ParseLines(DefaultConfiguration, StateA1(), lexed[2..], 3)
  {
    var s := Initial(DefaultConfiguration);
    assert s == State(IniData(CaseSensitive, [], []), None, []);
    BlankAt(DefaultConfiguration, s, lexed, 0);
    var k := Entry("g", [], "1");
    assert CurrentKeys(s) + [k] == [k];
    KeyAt(DefaultConfiguration, s, lexed, 1, "g", "1", StateA1());
    assert lexed[0..] == lexed;
  }

  lemma RunA2(lexed: seq<(string, Line)>)
    requires MergeLexedA(lexed)
    ensures ParseLines(DefaultConfiguration, StateA1(), lexed[2..], 3) ==
      ParseLines(DefaultConfiguration, StateA1s(), lexed[3..], 4)
  {
    var s := StateA1();
    assert s.doc.sections + [Entry("s0", s.pending, [])] == StateA1s().doc.sections;
    HeaderAt(DefaultConfiguration, s, lexed, 2, "s0", StateA1s());
  }

  lemma RunA3(lexed: seq<(string, Line)>)
    requires MergeLexedA(lexed)
    ensures ParseLines(DefaultConfiguration, StateA1s(), lexed[3..], 4) ==
      ParseLines(DefaultConfiguration, StateA2(), lexed[4..], 5)
  {
    var s := StateA1s();
    var k := Entry("a", [], "2");
    assert CurrentKeys(s) + [k] == [k];
    assert WithCurrentKeys(s, [k]) == StateA2();
    KeyAt(DefaultConfiguration, s, lexed, 3, "a", "2", StateA2());
  }

  lemma RunA4(lexed: seq<(string, Line)>)
    requires MergeLexedA(lexed)
    ensures ParseLines(DefaultConfiguration, StateA2(), lexed[4..], 5) ==
      ParseLines(DefaultConfiguration, StateA2s(), lexed[5..], 6)
  {
    var s := StateA2();
    ContainsIff(CaseSensitive, s.doc.sections, "s1");
    assert s.doc.sections + [Entry("s1", s.pending, [])] == StateA2s().doc.sections;
    HeaderAt(DefaultConfiguration, s, lexed, 4, "s1", StateA2s());
  }

  lemma RunA5(lexed: seq<(string, Line)>)
    requires MergeLexedA(lexed)
    ensures ParseLines(DefaultConfiguration, StateA2s(), lexed[5..], 6) ==
      ParseLines(DefaultConfiguration, StateA3(), lexed[6..], 7)
  {
    var s := StateA2s();
    var k := Entry("a", [], "3");
    assert CurrentKeys(s) + [k] == [k];
    assert WithCurrentKeys(s, [k]) == StateA3();
    KeyAt(DefaultConfiguration, s, lexed, 5, "a", "3", StateA3());
  }

  lemma RunA6(lexed: seq<(string, Line)>)
    requires MergeLexedA(lexed)
    ensures ParseLines(DefaultConfiguration, StateA3(), lexed[6..], 7) == Success(State(MergeDocA, Some(1), []))
  {
    var s := StateA3();
    var ks := [Entry("a", [], "3"), Entry("b", [], "4")];
    var fin := State(MergeDocA, Some(1), []);
    ContainsIff(CaseSensitive, CurrentKeys(s), "b");
    assert CurrentKeys(s) + [Entry("b", [], "4")] == ks;
    assert WithCurrentKeys(s, ks) == fin;
    KeyAt(DefaultConfiguration, s, lexed, 6, "b", "4", fin);
    BlankAt(DefaultConfiguration, fin, lexed, 7);
    RunEnd(DefaultConfiguration, fin, lexed);
  }

  lemma ParseMergeA(lines: seq<string>)
    requires MergeLinesA(lines)
    ensures Parse(DefaultConfiguration, DefaultScheme, lines) == Success(MergeDocA)
  {
    MergeLexA(lines);
    var lexed := LexLines(DefaultScheme, lines);
    RunA1(lexed);
    RunA2(lexed);
    RunA3(lexed);
    RunA4(lexed);
    RunA5(lexed);
    RunA6(lexed);
  }

  // The states the second merge fixture passes through.

  function StateB0(): State { State(IniData(CaseSensitive, [Entry("g", [], "11")], []), None, []) }
  function StateB1(): State { State(IniData(CaseSensitive, [Entry("g", [], "11"), Entry("j", [], "a")], []), None, []) }
  function StateB1s(): State {
    State(IniData(CaseSensitive, [Entry("g", [], "11"), Entry("j", [], "a")], [Entry("s0", [], [])]), Some(0), [])
  }
  function StateB2(): State {
    State(IniData(CaseSensitive, [Entry("g", [], "11"), Entry("j", [], "a")], [Entry("s0", [], [Entry("a", [], "22")])]), Some(0), [])
  }
  function StateB3(): State {
    State(IniData(CaseSensitive, [Entry("g", [], "11"), Entry("j", [], "a")],
      [Entry("s0", [], [Entry("a", [], "22"), Entry("b", [], "44")])]), Some(0), [])
  }
  function StateB4(): State {
    State(IniData(CaseSensitive, [Entry("g", [], "11"), Entry("j", [], "a")],
      [Entry("s0", [], [Entry("a", [], "22"), Entry("b", [], "44")]), Entry("s2", [], [])]), Some(1), [])
  }

  lemma RunB1(lexed: seq<(string, Line)>)
    requires MergeLexedB(lexed)
    ensures ParseLines(DefaultConfiguration, Initial(DefaultConfiguration), lexed, 1) ==
      ParseLines(DefaultConfiguration, StateB0(), lexed[2..], 3)
  {
    var s := Initial(DefaultConfiguration);
    assert s == State(IniData(CaseSensitive, [], []), None, []);
    BlankAt(DefaultConfiguration, s, lexed, 0);
    var g := Entry("g", [], "11");
    assert CurrentKeys(s) + [g] == [g];
    KeyAt(DefaultConfiguration, s, lexed, 1, "g", "11", StateB0());
    assert lexed[0..] == lexed;
  }

  lemma RunB2(lexed: seq<(string, Line)>)
    requires MergeLexedB(lexed)
    ensures ParseLines(DefaultConfiguration, StateB0(), lexed[2..], 3) ==
      ParseLines(DefaultConfiguration, StateB1(), lexed[3..], 4)
  {
    var s := StateB0();
    ContainsIff(CaseSensitive, CurrentKeys(s), "j");
    assert CurrentKeys(s) + [Entry("j", [], "a")] == StateB1().doc.global;
    KeyAt(DefaultConfiguration, s, lexed, 2, "j", "a", StateB1());
  }

  lemma RunB3(lexed: seq<(string, Line)>)
    requires MergeLexedB(lexed)
    ensures ParseLines(DefaultConfiguration, StateB1(), lexed[3..], 4) ==
      ParseLines(DefaultConfiguration, StateB1s(), lexed[4..], 5)
  {
    var s := StateB1();
    assert s.doc.sections + [Entry("s0", s.pending, [])] == StateB1s().doc.sections;
    HeaderAt(DefaultConfiguration, s, lexed, 3, "s0", StateB1s());
  }

  lemma RunB4(lexed: seq<(string, Line)>)
    requires MergeLexedB(lexed)
    ensures ParseLines(DefaultConfiguration, StateB1s(), lexed[4..], 5) ==
      ParseLines(DefaultConfiguration, StateB2(), lexed[5..], 6)
  {
    var s := StateB1s();
    var k := Entry("a", [], "22");
    assert CurrentKeys(s) + [k] == [k];
    assert WithCurrentKeys(s, [k]) == StateB2();
    KeyAt(DefaultConfiguration, s, lexed, 4, "a", "22", StateB2());
  }

  lemma RunB5(lexed: seq<(string, Line)>)
    requires MergeLexedB(lexed)
    ensures ParseLines(DefaultConfiguration, StateB2(), lexed[5..], 6) ==
      ParseLines(DefaultConfiguration, StateB3(), lexed[7..], 8)
  {
    var s := StateB2();
    var ks := [Entry("a", [], "22"), Entry("b", [], "44")];
    ContainsIff(CaseSensitive, CurrentKeys(s), "b");
    assert CurrentKeys(s) + [Entry("b", [], "44")] == ks;
    assert WithCurrentKeys(s, ks) == StateB3();
    KeyAt(DefaultConfiguration, s, lexed, 5, "b", "44", StateB3());
    BlankAt(DefaultConfiguration, StateB3(), lexed, 6);
  }

  lemma RunB7(lexed: seq<(string, Line)>)
    requires MergeLexedB(lexed)
    ensures ParseLines(DefaultConfiguration, StateB3(), lexed[7..], 8) ==
      ParseLines(DefaultConfiguration, StateB4(), lexed[8..], 9)
  {
    var s := StateB3();
    ContainsIff(CaseSensitive, s.doc.sections, "s2");
    assert s.doc.sections + [Entry("s2", s.pending, [])] == StateB4().doc.sections;
    HeaderAt(DefaultConfiguration, s, lexed, 7, "s2", StateB4());
  }

  lemma RunB8(lexed: seq<(string, Line)>)
    requires MergeLexedB(lexed)
    ensures ParseLines(DefaultConfiguration, StateB4(), lexed[8..], 9) == Success(State(MergeDocB, Some(1), []))
  {
    var s := StateB4();
    var k := Entry("c", [], "55");
    var fin := State(MergeDocB, Some(1), []);
    assert CurrentKeys(s) + [k] == [k];
    assert WithCurrentKeys(s, [k]) == fin;
    KeyAt(DefaultConfiguration, s, lexed, 8, "c", "55", fin);
    BlankAt(DefaultConfiguration, fin, lexed, 9);
    RunEnd(DefaultConfiguration, fin, lexed);
  }

  lemma ParseMergeB(lines: seq<string>)
    requires MergeLinesB(lines)
    ensures Parse(DefaultConfiguration, DefaultScheme, lines) == Success(MergeDocB)
  {
    MergeLexB(lines);
    var lexed := LexLines(DefaultScheme, lines);
    RunB1(lexed);
    RunB2(lexed);
    RunB3(lexed);
    RunB4(lexed);
    RunB5(lexed);
    RunB7(lexed);
    RunB8(lexed);
  }

  /** Both merge fixtures' documents are well formed. */
  lemma MergeDocsWellFormed()
    ensures WellFormed(MergeDocA) && WellFormed(MergeDocB)
  {
  }

  /** The source's global keys win; keys only the source holds are added. */
  lemma MergedGlobals()
    ensures GetGlobal(Document.Merge(MergeDocA, MergeDocB), "g") == Some("11")
    ensures GetGlobal(Document.Merge(MergeDocA, MergeDocB), "j") == Some("a")
  {
    MergeDocsWellFormed();
    FindAt(CaseSensitive, MergeDocB.global, 0, "g");
    FindAt(CaseSensitive, MergeDocB.global, 1, "j");
    MergeValues(MergeDocA, MergeDocB, "s0", "g");
    MergeValues(MergeDocA, MergeDocB, "s0", "j");
  }

  /** A section present on both sides reads the source's values, and keeps its name. */
  lemma MergedS0()
    ensures var m := Document.Merge(MergeDocA, MergeDocB);
      && GetSectionData(CaseSensitive, m.sections, "s0").Some?
      && GetSectionData(CaseSensitive, m.sections, "s0").value.name == "s0"
      && GetValue(m, "s0", "a") == Some("22") && GetValue(m, "s0", "b") == Some("44")
  {
    MergeDocsWellFormed();
    FindAt(CaseSensitive, MergeDocB.sections, 0, "s0");
    FindAt(CaseSensitive, MergeDocB.sections[0].data, 0, "a");
    FindAt(CaseSensitive, MergeDocB.sections[0].data, 1, "b");
    MergeValues(MergeDocA, MergeDocB, "s0", "a");
    MergeValues(MergeDocA, MergeDocB, "s0", "b");
  }

  /** The section only the target holds survives the merge unchanged. */
  lemma MergedS1Section()
    ensures GetSectionData(CaseSensitive, Document.Merge(MergeDocA, MergeDocB).sections, "s1") == Some(MergeDocA.sections[1])
  {
    MergeDocsWellFormed();
    FindNone(CaseSensitive, MergeDocB.sections, "s1");
    MergeKeepsTargetSections(MergeDocA, MergeDocB, "s1");
    FindAt(CaseSensitive, MergeDocA.sections, 1, "s1");
  }

  /** Reads through any document whose section `s1` is the first fixture's. */
  lemma S1Reads(m: IniData)
    requires m.policy == CaseSensitive
    requires GetSectionData(CaseSensitive, m.sections, "s1") == Some(MergeDocA.sections[1])
    ensures GetValue(m, "s1", "a") == Some("3") && GetValue(m, "s1", "b") == Some("4")
  {
    var s1 := MergeDocA.sections[1];
    FindAt(CaseSensitive, s1.data, 0, "a");
    FindAt(CaseSensitive, s1.data, 1, "b");
  }

  /** A section only the target holds keeps its values. */
  lemma MergedS1()
    ensures var m := Document.Merge(MergeDocA, MergeDocB);
      && GetSectionData(CaseSensitive, m.sections, "s1").Some?
      && GetSectionData(CaseSensitive, m.sections, "s1").value.name == "s1"
      && GetValue(m, "s1", "a") == Some("3") && GetValue(m, "s1", "b") == Some("4")
  {
    MergedS1Section();
    S1Reads(Document.Merge(MergeDocA, MergeDocB));
  }

  /** A section only the source holds is added with its values. */
  lemma MergedS2()
    ensures var m := Document.Merge(MergeDocA, MergeDocB);
      && GetSectionData(CaseSensitive, m.sections, "s2").Some?
      && GetSectionData(CaseSensitive, m.sections, "s2").value.name == "s2"
      && GetValue(m, "s2", "c") == Some("55")
  {
    MergeDocsWellFormed();
    FindAt(CaseSensitive, MergeDocB.sections, 1, "s2");
    FindAt(CaseSensitive, MergeDocB.sections[1].data, 0, "c");
    MergeValues(MergeDocA, MergeDocB, "s2", "c");
  }

  /** The section names of each merge fixture. */
  lemma MergeNames()
    ensures NameSet(CaseSensitive, MergeDocA.sections) == {"s0", "s1"}
    ensures NameSet(CaseSensitive, MergeDocB.sections) == {"s0", "s2"}
  {
    assert MergeDocA.sections[1..][1..] == [] && MergeDocB.sections[1..][1..] == [];
  }

  /** The section names of the two fixtures make three distinct names. */
  lemma ThreeNames()
    ensures |NameSet(CaseSensitive, MergeDocA.sections) + NameSet(CaseSensitive, MergeDocB.sections)| == 3
  {
    MergeNames();
    assert {"s0", "s1"} + {"s0", "s2"} == {"s0", "s1", "s2"};
  }

  /** Three distinct section names between the two documents. */
  lemma MergedCount()
    ensures |Document.Merge(MergeDocA, MergeDocB).sections| == 3
  {
    MergeDocsWellFormed();
    MergeSectionCount(MergeDocA, MergeDocB);
    ThreeNames();
  }

  /** merge_parsed_ini_files: merging a parsed document into another one
      overwrites conflicting values with the source's, adds what only the
      source holds, and keeps what only the target holds. */
  lemma MergeParsedScenario(linesA: seq<string>, linesB: seq<string>)
    requires MergeLinesA(linesA) && MergeLinesB(linesB)
    ensures Parse(DefaultConfiguration, DefaultScheme, linesA) == Success(MergeDocA)
    ensures Parse(DefaultConfiguration, DefaultScheme, linesB) == Success(MergeDocB)
    ensures var m := Document.Merge(MergeDocA, MergeDocB);
      && GetGlobal(m, "g") == Some("11") && GetGlobal(m, "j") == Some("a")
      && |m.sections| == 3
      && GetValue(m, "s0", "a") == Some("22") && GetValue(m, "s0", "b") == Some("44")
      && GetValue(m, "s1", "a") == Some("3") && GetValue(m, "s1", "b") == Some("4")
      && GetValue(m, "s2", "c") == Some("55")
  {
    ParseMergeA(linesA);
    ParseMergeB(linesB);
    MergedGlobals();
    MergedS0();
    MergedS1();
    MergedS2();
    MergedCount();
  }

  /** The document the separator fixture parses to. */
  const SeparatorDoc := IniData(CaseSensitive, [], [Entry("section", [], [Entry("bla=", [], "1")])])

  function SeparatorHeaderState(): State {
    State(IniData(CaseSensitive, [], [Entry("section", [], [])]), Some(0), [])
  }

  lemma Separator0(lexed: seq<(string, Line)>)
    requires |lexed| == 2 && lexed[0].1 == Header("section")
    ensures ParseLines(DefaultConfiguration, Initial(DefaultConfiguration), lexed, 1) ==
      ParseLines(DefaultConfiguration, SeparatorHeaderState(), lexed[1..], 2)
  {
    var s := Initial(DefaultConfiguration);
    assert s == State(IniData(CaseSensitive, [], []), None, []);
    HeaderAt(DefaultConfiguration, s, lexed, 0, "section", SeparatorHeaderState());
    assert lexed[0..] == lexed;
  }

  lemma Separator1(lexed: seq<(string, Line)>)
    requires |lexed| == 2 && lexed[1].1 == KeyValue("bla=", "1")
    ensures ParseLines(DefaultConfiguration, SeparatorHeaderState(), lexed[1..], 2) == Success(State(SeparatorDoc, Some(0), []))
  {
    var s := SeparatorHeaderState();
    var k := Entry("bla=", [], "1");
    var fin := State(SeparatorDoc, Some(0), []);
    assert CurrentKeys(s) + [k] == [k];
    assert WithCurrentKeys(s, [k]) == fin;
    KeyAt(DefaultConfiguration, s, lexed, 1, "bla=", "1", fin);
    RunEnd(DefaultConfiguration, fin, lexed);
  }

  lemma SeparatorRun(lexed: seq<(string, Line)>)
    requires |lexed| == 2 && lexed[0].1 == Header("section") && lexed[1].1 == KeyValue("bla=", "1")
    ensures ParseLines(DefaultConfiguration, Initial(DefaultConfiguration), lexed, 1) == Success(State(SeparatorDoc, Some(0), []))
  {
    Separator0(lexed);
    Separator1(lexed);
  }

  /** test_key_containing_separator: with ` =` as the delimiter, a key may
      itself contain `=`; the line splits at the first ` =`. */
  lemma KeyContainingSeparatorScenario(lines: seq<string>)
    requires |lines| == 2 && lines[0] == "[section]" && lines[1] == "bla= = 1"
    ensures Parse(DefaultConfiguration, SpacedScheme, lines) == Success(SeparatorDoc)
    ensures HasKey(SeparatorDoc, "section", "bla=") && GetValue(SeparatorDoc, "section", "bla=") == Some("1")
  {
    LineSpacedSection(lines[0]);
    LineBla(lines[1]);
    SeparatorRun(LexLines(SpacedScheme, lines));
    FindAt(CaseSensitive, SeparatorDoc.sections, 0, "section");
    FindAt(CaseSensitive, SeparatorDoc.sections[0].data, 0, "bla=");
  }
}

=== FILE: sections.dfy ===
/** Section collections: the ordered, named sections of a document, each
    with its own leading comments and key collection. */
module Sections {
  import opened Wrappers
  import opened Names
  import opened Collection
  import opened Keys

  /** A section: its name, leading comment lines, and key collection. */
  type Section = Entry<seq<Property>>

  /** `ContainsSection`: some section is named `name`. */
  predicate ContainsSection(p: CasePolicy, ss: seq<Section>, name: string) {
    Contains(p, ss, name)
  }

  /** `GetSectionData`: the section named `name`, if any. */
  function GetSectionData(p: CasePolicy, ss: seq<Section>, name: string): (r: Option<Section>)
    ensures r.Some? <==> ContainsSection(p, ss, name)
    ensures r.Some? ==> r.value in ss && Same(p, r.value.name, name)
  {
    Find(p, ss, name)
  }

  /** `AddSection(name)`: appends an empty section unless one of that name
      exists, in which case nothing changes. */
  function AddSection(p: CasePolicy, ss: seq<Section>, name: string): (r: seq<Section>)
    ensures ContainsSection(p, r, name)
    ensures ContainsSection(p, ss, name) ==> r == ss
    ensures !ContainsSection(p, ss, name) ==> r == ss + [Entry(name, [], [])]
    ensures Unique(p, ss) ==> Unique(p, r)
  {
    AddIfAbsent(p, ss, Entry(name, [], []))
  }

  /** The copy of `s` a collection under `p` stores: its keys re-entered
      one by one under `p`, so that of keys the policy equates the last
      one wins. */
  function Adopt(p: CasePolicy, s: Section): (r: Section)
    ensures r.name == s.name && r.comments == s.comments && Unique(p, r.data)
    ensures forall n :: Get(p, r.data, n) == match LastMatch(p, s.data, n) case Some(e) => Some(e.data) case None => None
    ensures Unique(p, s.data) ==> r == s
  {
    var r := s.(data := Rebuild(p, s.data));
    assert Unique(p, s.data) ==> r == s by {
      if Unique(p, s.data) {
        RebuildUnique(p, s.data);
      }
    }
    assert forall n :: Get(p, r.data, n) == match LastMatch(p, s.data, n) case Some(e) => Some(e.data) case None => None by {
      forall n ensures Get(p, r.data, n) == match LastMatch(p, s.data, n) case Some(e) => Some(e.data) case None => None {
        FindAfterRebuild(p, s.data, n);
      }
    }
    r
  }

  /** `Add(section)`: stores a copy of a whole section built elsewhere,
      re-keyed under this collection's policy, replacing the keys and
      comments of one already present under that name. */
  function AddSectionData(p: CasePolicy, ss: seq<Section>, s: Section): (r: seq<Section>)
    ensures |r| == if ContainsSection(p, ss, s.name) then |ss| else |ss| + 1
    ensures forall i :: 0 <= i < |ss| ==> r[i].name == ss[i].name
    ensures Unique(p, ss) ==> Unique(p, r)
  {
    Put(p, ss, Adopt(p, s))
  }

  /** After `AddSection` the name resolves; a new section is empty, an
      existing one is untouched, and other names resolve as before. */
  lemma GetAfterAddSection(p: CasePolicy, ss: seq<Section>, name: string, other: string)
    ensures GetSectionData(p, AddSection(p, ss, name), other) ==
      if Same(p, name, other) then
        (if ContainsSection(p, ss, name) then GetSectionData(p, ss, other) else Some(Entry(name, [], [])))
      else GetSectionData(p, ss, other)
  {
    if !ContainsSection(p, ss, name) {
      FindAfterAppend(p, ss, Entry(name, [], []), other);
    }
  }

  /** After `Add(section)` every spelling of its name resolves to a section
      with its comments and its keys re-keyed under `p`; other names
      resolve as before; names stay unique, and so do the keys of every
      section. */
  lemma GetAfterAddSectionData(p: CasePolicy, ss: seq<Section>, s: Section, other: string)
    ensures Same(p, s.name, other) ==>
      GetSectionData(p, AddSectionData(p, ss, s), other).Some? &&
      GetSectionData(p, AddSectionData(p, ss, s), other).value.data == Rebuild(p, s.data) &&
      GetSectionData(p, AddSectionData(p, ss, s), other).value.comments == s.comments
    ensures !Same(p, s.name, other) ==>
      GetSectionData(p, AddSectionData(p, ss, s), other) == GetSectionData(p, ss, other)
    ensures Unique(p, ss) ==> Unique(p, AddSectionData(p, ss, s))
    ensures (forall i :: 0 <= i < |ss| ==> Unique(p, ss[i].data)) ==>
      var r := AddSectionData(p, ss, s); forall i :: 0 <= i < |r| ==> Unique(p, r[i].data)
  {
    FindAfterPut(p, ss, Adopt(p, s), other);
  }

  /** Every section re-keyed under `p`, as a merge copies it in: each
      keeps its name and comments and gets keys unique under `p`. */
  function Adopted(p: CasePolicy, ss: seq<Section>): (r: seq<Section>)
    ensures |r| == |ss|
    ensures forall i :: 0 <= i < |ss| ==> r[i] == Adopt(p, ss[i])
    ensures forall i :: 0 <= i < |ss| ==>
      r[i].name == ss[i].name && r[i].comments == ss[i].comments && Unique(p, r[i].data)
  {
    MapData(ss, (ks: seq<Property>) => Rebuild(p, ks))
  }

  /** Merging section collections: a section present on both sides gets the
      source's keys merged into its own (its comments stay); a source-only
      section is appended whole. Source sections are taken re-keyed under
      the target's policy. */
  function MergeSections(p: CasePolicy, target: seq<Section>, source: seq<Section>): (r: seq<Section>)
    ensures |target| <= |r|
    ensures forall i :: 0 <= i < |target| ==> r[i].name == target[i].name && r[i].comments == target[i].comments
    ensures Unique(p, target) ==> Unique(p, r)
  {
    Merge(p, target, Adopted(p, source), (tk: seq<Property>, sk: seq<Property>) => MergeKeys(p, tk, sk))
  }

  /** Merge semantics for sections, name by name. */
  lemma MergeSectionsSpec(p: CasePolicy, target: seq<Section>, source: seq<Section>, n: string)
    requires Unique(p, source)
    ensures ContainsSection(p, MergeSections(p, target, source), n) <==>
      ContainsSection(p, target, n) || ContainsSection(p, source, n)
    ensures !ContainsSection(p, source, n) ==>
      GetSectionData(p, MergeSections(p, target, source), n) == GetSectionData(p, target, n)
    ensures !ContainsSection(p, target, n) && ContainsSection(p, source, n) ==>
      GetSectionData(p, MergeSections(p, target, source), n) == Some(Adopt(p, GetSectionData(p, source, n).value))
    ensures ContainsSection(p, target, n) && ContainsSection(p, source, n) ==>
      var t := GetSectionData(p, target, n).value;
      GetSectionData(p, MergeSections(p, target, source), n) ==
        Some(Entry(t.name, t.comments, MergeKeys(p, t.data, Adopt(p, GetSectionData(p, source, n).value).data)))
  {
    var f := (ks: seq<Property>) => Rebuild(p, ks);
    FindAfterMapData(p, source, f, n);
    FindAfterMerge(p, target, Adopted(p, source), (tk: seq<Property>, sk: seq<Property>) => MergeKeys(p, tk, sk), n);
  }

  /** When every section of the target has unique key names, so does every
      section of the merge, whatever the source holds. */
  lemma MergeSectionsKeysUnique(p: CasePolicy, target: seq<Section>, source: seq<Section>)
    requires forall i :: 0 <= i < |target| ==> Unique(p, target[i].data)
    ensures var r := MergeSections(p, target, source); forall i :: 0 <= i < |r| ==> Unique(p, r[i].data)
  {
    var P := (ks: seq<Property>) => Unique(p, ks);
    var combine := (tk: seq<Property>, sk: seq<Property>) => MergeKeys(p, tk, sk);
    var a := Adopted(p, source);
    assert AllData(target, P) && AllData(a, P);
    MergeKeepsData(p, target, a, combine, P);
    var r := MergeSections(p, target, source);
    assert forall i :: 0 <= i < |r| ==> P(r[i].data);
  }
}

=== FILE: text.dfy ===
/** Character-level helpers of the line parser: whitespace trimming, prefix
    tests, first-occurrence search and ASCII case folding. */
module Text {
  import opened Wrappers

  /** The characters .NET counts as white space (`char.IsWhiteSpace`):
      the control characters U+0009 to U+000D and U+0085, and the Unicode
      space, line and paragraph separators. Trimming removes exactly these. */
  predicate IsWhitespace(c: char) {
    || '\U{0009}' <= c <= '\U{000D}' || c == ' ' || c == '\U{0085}' || c == '\U{00A0}' || c == '\U{1680}'
    || '\U{2000}' <= c <= '\U{200A}' || c == '\U{2028}' || c == '\U{2029}' || c == '\U{202F}'
    || c == '\U{205F}' || c == '\U{3000}'
  }

  /** Every character of `s` is whitespace (true of the empty string). */
  predicate AllWhitespace(s: string) {
    forall i :: 0 <= i < |s| ==> IsWhitespace(s[i])
  }

  /** `s` neither begins nor ends with whitespace. */
  predicate Trimmed(s: string) {
    |s| == 0 || (!IsWhitespace(s[0]) && !IsWhitespace(s[|s| - 1]))
  }

  /** `s` without its leading whitespace. */
  function TrimStart(s: string): (r: string)
    ensures |r| <= |s| && r == s[|s| - |r|..]
    ensures AllWhitespace(s[..|s| - |r|])
    ensures |r| > 0 ==> !IsWhitespace(s[|s| - |r|])
  {
    if |s| > 0 && IsWhitespace(s[0]) then TrimStart(s[1..]) else s
  }

  /** `s` without its trailing whitespace. */
  function TrimEnd(s: string): (r: string)
    ensures |r| <= |s| && r == s[..|r|]
    ensures AllWhitespace(s[|r|..])
    ensures |r| > 0 ==> !IsWhitespace(s[|r| - 1])
  {
    if |s| > 0 && IsWhitespace(s[|s| - 1]) then TrimEnd(s[..|s| - 1]) else s
  }

  /** `s` without leading and trailing whitespace (TrimFrame below states
      exactly which infix that is). */
  function Trim(s: string): (r: string)
    ensures Trimmed(r)
    ensures |r| <= |s|
  {
    TrimEnd(TrimStart(s))
  }

  /** Trimming leaves nothing exactly when the string is all whitespace. */
  lemma TrimEmpty(s: string)
    ensures Trim(s) == [] <==> AllWhitespace(s)
  {
    var a := TrimStart(s);
    var r := TrimEnd(a);
    if r == [] {
      assert s == s[..|s| - |a|] + a;
      assert AllWhitespace(a[|r|..]);
    }
  }

  lemma {:induction false} TrimStartFrame(pre: string, t: string)
    requires AllWhitespace(pre)
    requires |t| == 0 || !IsWhitespace(t[0])
    ensures TrimStart(pre + t) == t
  {
    if |pre| > 0 {
      assert (pre + t)[1..] == pre[1..] + t;
      TrimStartFrame(pre[1..], t);
    }
  }

  lemma {:induction false} TrimEndFrame(t: string, post: string)
    requires AllWhitespace(post)
    requires |t| == 0 || !IsWhitespace(t[|t| - 1])
    ensures TrimEnd(t + post) == t
  {
    if |post| > 0 {
      assert (t + post)[..|t + post| - 1] == t + post[..|post| - 1];
      TrimEndFrame(t, post[..|post| - 1]);
    }
  }

  /** Trim removes exactly the whitespace framing a trimmed infix. */
  lemma TrimFrame(pre: string, t: string, post: string)
    requires AllWhitespace(pre) && AllWhitespace(post) && Trimmed(t)
    ensures Trim(pre + t + post) == t
  {
    if |t| == 0 {
      assert pre + t + post == pre + post;
      assert AllWhitespace(pre + post);
    } else {
      assert pre + t + post == pre + (t + post);
      TrimStartFrame(pre, t + post);
      TrimEndFrame(t, post);
    }
  }

  /** Trimming is idempotent. */
  lemma TrimIdempotent(s: string)
    ensures Trim(Trim(s)) == Trim(s)
  {
    TrimFrame([], Trim(s), []);
    assert [] + Trim(s) + [] == Trim(s);
  }

  /** `s` begins with `prefix`. */
  predicate StartsWith(s: string, prefix: string) {
    |prefix| <= |s| && s[..|prefix|] == prefix
  }

  /** Every string begins with its own prefixes. */
  lemma StartsWithConcat(a: string, b: string)
    ensures StartsWith(a + b, a)
  {
    assert (a + b)[..|a|] == a;
  }

  /** Strings whose first characters differ do not begin one with the other. */
  lemma FirstCharDiffers(s: string, prefix: string)
    requires |s| > 0 && |prefix| > 0 && s[0] != prefix[0]
    ensures !StartsWith(s, prefix)
  {
    if |prefix| <= |s| {
      assert s[..|prefix|][0] == s[0];
    }
  }

  /** `pat` occurs in `s` starting at index `i`. */
  predicate OccursAt(s: string, pat: string, i: int) {
    0 <= i && i + |pat| <= |s| && s[i..i + |pat|] == pat
  }

  /** The first index at or after `k` where `pat` occurs in `s`, scanning left to right. */
  function FindFrom(s: string, pat: string, k: nat): (r: Option<nat>)
    decreases |s| - k
    ensures r.Some? ==> k <= r.value && OccursAt(s, pat, r.value)
    ensures r.Some? ==> forall j :: k <= j < r.value ==> !OccursAt(s, pat, j)
    ensures r.None? ==> forall j :: k <= j ==> !OccursAt(s, pat, j)
  {
    if k + |pat| > |s| then None
    else if s[k..k + |pat|] == pat then Some(k)
    else FindFrom(s, pat, k + 1)
  }

  /** The first index where `pat` occurs in `s`. */
  function FindFirst(s: string, pat: string): (r: Option<nat>)
    ensures r.Some? ==> OccursAt(s, pat, r.value)
    ensures r.Some? ==> forall j :: 0 <= j < r.value ==> !OccursAt(s, pat, j)
    ensures r.None? ==> forall j :: 0 <= j ==> !OccursAt(s, pat, j)
  {
    FindFrom(s, pat, 0)
  }

  /** Splits `s` around the first left-to-right occurrence of `delim`:
      the text before it and the text after it. */
  function SplitAtFirst(s: string, delim: string): (r: Option<(string, string)>)
    ensures r.Some? ==> s == r.value.0 + delim + r.value.1
    ensures r.Some? ==> forall j :: 0 <= j < |r.value.0| ==> !OccursAt(s, delim, j)
    ensures r.None? <==> forall j :: 0 <= j ==> !OccursAt(s, delim, j)
  {
    match FindFirst(s, delim)
    case Some(i) =>
      assert s == s[..i] + delim + s[i + |delim|..] by {
        assert s[i..i + |delim|] == delim;
        assert s == s[..i] + s[i..i + |delim|] + s[i + |delim|..];
      }
      Some((s[..i], s[i + |delim|..]))
    case None => None
  }

  /** A delimiter whose first character does not occur in `before` cannot
      start inside `before`. */
  lemma NoEarlierOccurrence(before: string, delim: string, after: string)
    requires |delim| > 0 && delim[0] !in before
    ensures forall j :: 0 <= j < |before| ==> !OccursAt(before + delim + after, delim, j)
  {
  }

  /** The split is determined by the first occurrence: any decomposition
      `before + delim + after` in which `delim` does not start earlier
      inside `before` is the one SplitAtFirst returns. */
  lemma SplitAtFirstUnique(before: string, delim: string, after: string)
    requires forall j :: 0 <= j < |before| ==> !OccursAt(before + delim + after, delim, j)
    ensures SplitAtFirst(before + delim + after, delim) == Some((before, after))
  {
    var s := before + delim + after;
    assert OccursAt(s, delim, |before|) by {
      assert s[|before|..|before| + |delim|] == delim;
    }
    var r := SplitAtFirst(s, delim);
    var n := |r.value.0|;
    assert OccursAt(s, delim, n) by {
      assert s[n..n + |delim|] == delim;
    }
    assert n == |before|;
    assert r.value.0 == s[..n] == before;
    assert r.value.1 == s[n + |delim|..] == after;
  }

  /** ASCII lower-case of one character. */
  function LowerChar(c: char): (r: char)
    ensures 'A' <= c <= 'Z' ==> 'a' <= r <= 'z'
    ensures !('A' <= c <= 'Z') ==> r == c
    ensures r as int - c as int == 0 || r as int - c as int == 32
  {
    if 'A' <= c <= 'Z' then (c as int - 'A' as int + 'a' as int) as char else c
  }

  /** ASCII lower-case of a string, character by character. */
  function Lower(s: string): (r: string)
    ensures |r| == |s|
    ensures forall i :: 0 <= i < |s| ==> r[i] == LowerChar(s[i])
  {
    seq(|s|, i requires 0 <= i < |s| => LowerChar(s[i]))
  }

  /** Folding twice is folding once. */
  lemma LowerIdempotent(s: string)
    ensures Lower(Lower(s)) == Lower(s)
  {
  }
}

=== FILE: wrappers.dfy ===
/** The optional and result types used throughout the model. */
module Wrappers {

  /** An optional value: the model's "absent" answer for lookups of missing names. */
  datatype Option<+T> = None | Some(value: T)

  /** Either a value or a typed failure, in place of the source's exceptions. */
  datatype Result<+R, +E> = Success(value: R) | Failure(error: E)
}
